=== FILE: README.md ===
# pydabot core, modelled in Dafny

This project models the message-handling and announcement core of pydabot, an IRC
bot written in Java on top of PircBotX. It covers these classes:

- **`CommandListener`**: the generic command router. A message must match
  `^!(\w+)(?:\s+(.*))?` in full. Group 2 is split at every single whitespace
  character. The handler that the injected command map gives for group 1 is
  called once, with the event and the arguments.
- **`SimpleCommandListener`**: the prefix router. It strips leading whitespace
  and takes the first space-separated token. If the token starts with the prefix,
  the rest of the token names a canned reply, which is sent when the mapping has
  one.
- **`Moderator`**: classifies the text into a severity, then asks the response
  policy for an optional reply to the sender. The policy is either an injected
  function or a severity→template map, whose templates are filled in with
  `formatted`.
- **`AnnouncementWorker`** and its near-duplicate **`AnnounceWorker`**: each `run`
  makes a weighted random pick over a list of announcements. The pick's message
  is sent to `"#" + channel` through the bot, or nothing happens while the bot is
  null. The workers also add, remove, clear and list announcements.
- **`IrcUtils.channelOf`**: prefixes a channel name with `#`.

The model is functional. Listeners are pure functions from an event to what they do:
- `CommandListener`: a `Dispatch` (ignored, exception, unmapped name, or one
  handler call).
- `SimpleCommandListener`: the optional reply.
- `Moderator`: a `Reaction` (one reply, silence, or the exception).

A worker is a value holding its optional bot and its announcement sequence. Each
list operation returns the next worker, and `run` returns a `RunOutcome`. Java
exceptions are values of `JavaLang.JavaException`. Java nulls returned by the
injected functions are `None`. Handlers, bots and severities are type parameters.

What the code does in the cases where a reader might expect otherwise:
- A bare `!name` has no group 2, so `group(2).split` throws `NullPointerException`
  before any lookup. The doc comment of `COMMAND_REGEX` (`CommandListener.java:33`)
  still lists `!command` as a matched form.
- Arguments are split at every `\s` character: space, tab, vertical tab and form
  feed. A newline or carriage return never reaches the split, because `.*` rejects
  it and the message is ignored (`CommandListener.LineTerminatorIgnored`). The doc
  comment of `COMMAND_REGEX` (`CommandListener.java:29`) says "splitted by
  spaces"; the class doc comment (`CommandListener.java:21-22`) says "separated by
  whitespaces", which agrees with the code.
- In the map variant of `Moderator`, a severity missing from the map throws
  `NullPointerException`. So with the example moderator `Moderator.SpamModerator`
  (map `{ban: "%s has been warned"}`), "hello" (severity none) raises that
  exception.
- While the bot is set, an empty announcement list makes `run` throw
  `NoSuchElementException`. With a null bot, `run` returns first
  (`AnnouncementWorker.java:59-60`).
- None of the modelled classes checks a weight. The `Announcement` and `Announce`
  classes are not visible, so the model allows any real weight.

Files:
- `wrappers.dfy`: `Option`, `Result`.
- `java_lang.dfy`: exceptions, character classes, `stripLeading`.
- `java_split.dfy`: `String.split` with a one-character separator class.
- `java_format.dfy`: `String.formatted` for `%s`/`%%` templates.
- `events.dfy`: the message event the listeners receive.
- `irc_utils.dfy`: `channelOf`.
- `command_listener.dfy`, `simple_command_listener.dfy`, `moderator.dfy`.
- `announcements.dfy`: the record, the weighted walk, `Vector.remove`.
- `announcement_worker.dfy`, `announce_worker.dfy`.

## Model

| member | source | states |
|---|---|---|
| IrcUtils.ChannelOf | pydabot/src/main/java/com/pydawan/pydabot/irc/IrcUtils.java:7-9 | the channel address is one character longer than the name, starts with `#`, and continues with the name unchanged |
| IrcUtils.ChannelOfInjective | pydabot/src/main/java/com/pydawan/pydabot/irc/IrcUtils.java:8 | two names give the same address if and only if they are equal |
| IrcUtils.ChannelOfNotIdempotent | pydabot/src/main/java/com/pydawan/pydabot/irc/IrcUtils.java:8 | there is no normalisation: `channelOf("#x")` is `"##x"`, and applying it twice never gives the once-applied address |
| JavaLang.StripLeading | pydabot/src/main/java/com/pydawan/pydabot/listeners/SimpleCommandListener.java:58 | the result is a suffix of the message; everything removed is `Character.isWhitespace`; the result is empty or starts with non-whitespace |
| JavaLang.StripLeadingSkipsWhitespace | pydabot/src/main/java/com/pydawan/pydabot/listeners/SimpleCommandListener.java:58 | whitespace put in front of a message does not change the stripped message |
| JavaLang.StripLeadingIdempotent | pydabot/src/main/java/com/pydawan/pydabot/listeners/SimpleCommandListener.java:58 | stripping twice is stripping once |
| JavaSplit.Pieces | pydabot/src/main/java/com/pydawan/pydabot/listeners/CommandListener.java:62 | the text cut at every separator character: one piece more than separators, and no piece holds a separator |
| JavaSplit.PiecesRejoin | pydabot/src/main/java/com/pydawan/pydabot/listeners/CommandListener.java:62 | putting the separators back between the pieces rebuilds the text: splitting loses nothing |
| JavaSplit.PiecesOfPlainText | pydabot/src/main/java/com/pydawan/pydabot/listeners/CommandListener.java:62 | a text without separators is a single piece |
| JavaSplit.PiecesAfterSeparator | pydabot/src/main/java/com/pydawan/pydabot/listeners/CommandListener.java:62 | a separator-free prefix followed by a separator is the first piece, and the rest is split independently |
| JavaSplit.Split | pydabot/src/main/java/com/pydawan/pydabot/listeners/CommandListener.java:62 | `split` with limit 0 is the pieces with only trailing empty pieces dropped: `""` gives `[""]`; a text with no separator gives itself; otherwise the last kept piece is non-empty |
| JavaSplit.SplitKeepsAllPieces | pydabot/src/main/java/com/pydawan/pydabot/listeners/CommandListener.java:62 | when the last piece is non-empty, nothing is dropped |
| JavaSplit.SplitDropsLastEmptyPiece | pydabot/src/main/java/com/pydawan/pydabot/listeners/CommandListener.java:62 | when only the last piece is empty, exactly that piece is dropped |
| JavaSplit.FirstPiece | pydabot/src/main/java/com/pydawan/pydabot/listeners/SimpleCommandListener.java:58 | the first piece is a prefix of the text that ends at the end or at a separator |
| JavaSplit.SplitHead | pydabot/src/main/java/com/pydawan/pydabot/listeners/SimpleCommandListener.java:58 | on a text not starting with a separator, `split(...)[0]` exists and is the longest separator-free prefix |
| CommandListener.MatchCommand | pydabot/src/main/java/com/pydawan/pydabot/listeners/CommandListener.java:35-60 | a message not starting with `!` and a word character never matches; group 1 is a non-empty run of word characters; group 2 never holds a line terminator |
| CommandListener.MatchCommandSound | pydabot/src/main/java/com/pydawan/pydabot/listeners/CommandListener.java:35 | every match found is a way the pattern matches the whole message, with group 2 starting after the longest whitespace run |
| CommandListener.MatchCommandComplete | pydabot/src/main/java/com/pydawan/pydabot/listeners/CommandListener.java:35 | every way the pattern matches is found, with the same group 1; group 2 is absent exactly when nothing follows the name |
| CommandListener.MatchIffPattern | pydabot/src/main/java/com/pydawan/pydabot/listeners/CommandListener.java:35 | `matches()` succeeds if and only if the message is in the pattern's language |
| CommandListener.ParseCommand | pydabot/src/main/java/com/pydawan/pydabot/listeners/CommandListener.java:56-63 | null (no reply) exactly when the pattern does not match; `NullPointerException` exactly when it matches with no group 2; otherwise group 1 as the name and, as arguments, the whitespace-free pieces of group 2 in order, with every empty trailing piece dropped, so the last argument is non-empty; an empty group 2 (`"!name "`) gives one empty argument |
| CommandListener.OnMessage | pydabot/src/main/java/com/pydawan/pydabot/listeners/CommandListener.java:65-79 | a handler is only called with the originating event and only when the map gives it for group 1; an unmapped outcome means the map returned null for that name |
| CommandListener.IgnoredIffNoMatch | pydabot/src/main/java/com/pydawan/pydabot/listeners/CommandListener.java:57-71 | a message is ignored, whatever the command map, if and only if the pattern does not match it |
| CommandListener.NotACommandIgnored | pydabot/src/main/java/com/pydawan/pydabot/listeners/CommandListener.java:35 | a message not starting with `!` followed by a word character is ignored |
| CommandListener.BareCommandThrows | pydabot/src/main/java/com/pydawan/pydabot/listeners/CommandListener.java:59-62 | `!name` alone matches but throws `NullPointerException` at `split`, so no handler runs even though the doc comment of `COMMAND_REGEX` lists that form |
| CommandListener.MatchOfParts | pydabot/src/main/java/com/pydawan/pydabot/listeners/CommandListener.java:35 | for `!` + name + whitespace run + text, group 1 is the name and group 2 is the text, unless the text holds a line terminator |
| CommandListener.DispatchByName | pydabot/src/main/java/com/pydawan/pydabot/listeners/CommandListener.java:62-78 | the name looked up is the word run unchanged (case-sensitive); unmapped names call nothing; a mapped handler gets the event and the text after the whitespace run split at each whitespace character |
| CommandListener.LineTerminatorIgnored | pydabot/src/main/java/com/pydawan/pydabot/listeners/CommandListener.java:35 | argument text holding a line terminator makes the message ignored |
| CommandListener.SplitTwo | pydabot/src/main/java/com/pydawan/pydabot/listeners/CommandListener.java:62 | two whitespace-free strings around one whitespace character cut into exactly those two pieces (before trailing empty pieces are dropped, so an empty second string is dropped by `split`) |
| CommandListener.DoubleSpacePieces | pydabot/src/main/java/com/pydawan/pydabot/listeners/CommandListener.java:62 | two spaces between words leave an empty piece between them |
| CommandListener.TwoArguments | pydabot/src/main/java/com/pydawan/pydabot/listeners/CommandListener.java:62-78 | `!name a b` calls the handler for `name` with exactly `[a, b]` |
| CommandListener.CommandListenerExample | pydabot/src/test/java/com/pydawan/listener/CommandListenerTest.java:47-55 | `"!command arg1 arg2"` calls the `command` handler with `["arg1", "arg2"]` |
| CommandListener.TrailingSpaceGivesEmptyArgument | pydabot/src/main/java/com/pydawan/pydabot/listeners/CommandListener.java:62 | `!name ` calls the handler with `[""]` |
| CommandListener.DoubleSpaceGivesEmptyArgument | pydabot/src/main/java/com/pydawan/pydabot/listeners/CommandListener.java:62 | consecutive inner whitespace produces an empty argument: `[a, "", b]` |
| CommandListener.TrailingEmptyArgumentsDropped | pydabot/src/main/java/com/pydawan/pydabot/listeners/CommandListener.java:62 | a space after the last argument adds no trailing empty argument: `[a]` |
| CommandListener.SplitDropsTrailingSpace | pydabot/src/main/java/com/pydawan/pydabot/listeners/CommandListener.java:62 | a word followed by one space splits to just that word |
| SimpleCommandListener.FromMap | pydabot/src/main/java/com/pydawan/pydabot/listeners/SimpleCommandListener.java:40-42 | the Map constructor keeps the prefix, and its mapping answers exactly for the map's keys with the mapped value |
| SimpleCommandListener.CommandToken | pydabot/src/main/java/com/pydawan/pydabot/listeners/SimpleCommandListener.java:58 | the token is a space-free prefix of the stripped message that ends at a space or at the end; indexing `[0]` never fails |
| SimpleCommandListener.CommandName | pydabot/src/main/java/com/pydawan/pydabot/listeners/SimpleCommandListener.java:60-62 | a name exists if and only if the token starts with the prefix, and then prefix + name is the token |
| SimpleCommandListener.OnMessage | pydabot/src/main/java/com/pydawan/pydabot/listeners/SimpleCommandListener.java:55-64 | a reply is sent only when the token starts with the prefix; then the reply is exactly the mapping of the token less the prefix, and nothing when the mapping gives null |
| SimpleCommandListener.LeadingWhitespaceIgnored | pydabot/src/main/java/com/pydawan/pydabot/listeners/SimpleCommandListener.java:58 | leading whitespace makes no difference to the reply |
| SimpleCommandListener.TokenEndsOnlyAtSpace | pydabot/src/main/java/com/pydawan/pydabot/listeners/SimpleCommandListener.java:17 | a message without U+0020 and without leading whitespace is its own token |
| SimpleCommandListener.TabDoesNotSplit | pydabot/src/main/java/com/pydawan/pydabot/listeners/SimpleCommandListener.java:17 | `"!hello\tworld"` is one token: a tab does not end it |
| SimpleCommandListener.TokenUnique | pydabot/src/main/java/com/pydawan/pydabot/listeners/SimpleCommandListener.java:58 | only one prefix satisfies the token's description, so it fixes the token |
| SimpleCommandListener.RestIgnored | pydabot/src/main/java/com/pydawan/pydabot/listeners/SimpleCommandListener.java:58-63 | text after the first space is ignored: `"!hello world"` gets the reply of `"!hello"` |
| SimpleCommandListener.StripLeadingOfAppend | pydabot/src/main/java/com/pydawan/pydabot/listeners/SimpleCommandListener.java:58 | text appended to a message that is not all whitespace survives stripping |
| SimpleCommandListener.FromMapIsMapGet | pydabot/src/main/java/com/pydawan/pydabot/listeners/SimpleCommandListener.java:40-42 | the Map constructor replies exactly as a listener whose mapping is `map::get` |
| SimpleCommandListener.HelloWorldExample | pydabot/src/main/java/com/pydawan/pydabot/listeners/SimpleCommandListener.java:55-64 | with prefix `!` and `{hello: "Hello, world!"}`, `"!hello"` gets `"Hello, world!"` and `"hello"` gets nothing |
| JavaFormat.PlainTextFormatsToItself | pydabot/src/main/java/com/pydawan/pydabot/listeners/Moderator.java:31 | a template without `%` formats to itself |
| JavaFormat.SingleSlot | pydabot/src/main/java/com/pydawan/pydabot/listeners/Moderator.java:31 | a template with one `%s` and no other `%` puts the sender in the slot and keeps the text around it |
| JavaFormat.SecondSlotFails | pydabot/src/main/java/com/pydawan/pydabot/listeners/Moderator.java:31 | a second `%s` has no argument left, so formatting fails |
| JavaFormat.SecondSlotAfterUse | pydabot/src/main/java/com/pydawan/pydabot/listeners/Moderator.java:31 | once the argument is used, the next `%s` fails |
| JavaFormat.Format | pydabot/src/main/java/com/pydawan/pydabot/listeners/Moderator.java:31 | formatting fails only with an illegal-format exception |
| JavaFormat.Formatted | pydabot/src/main/java/com/pydawan/pydabot/listeners/Moderator.java:31 | `formatted` fails only with an illegal-format exception, and a template without `%` comes back unchanged |
| Moderator.Create | pydabot/src/main/java/com/pydawan/pydabot/listeners/Moderator.java:19-25 | construction succeeds if and only if both functions are non-null, and keeps them; otherwise it throws `NullPointerException` |
| Moderator.MapResponder | pydabot/src/main/java/com/pydawan/pydabot/listeners/Moderator.java:31 | the map's policy never answers null; it throws `NullPointerException` if and only if the severity has no entry |
| Moderator.CreateFromMap | pydabot/src/main/java/com/pydawan/pydabot/listeners/Moderator.java:27-32 | the Map constructor throws `NullPointerException` if and only if the classifier is null, and otherwise keeps the classifier with the map's policy |
| Moderator.Moderate | pydabot/src/main/java/com/pydawan/pydabot/listeners/Moderator.java:34-39 | the policy's answer on the sender and the text's severity decides everything: a non-null answer is the one reply sent, null sends nothing, and the policy's exception propagates |
| Moderator.OnMessage | pydabot/src/main/java/com/pydawan/pydabot/listeners/Moderator.java:41-43 | `onMessage` reacts exactly as `moderate` does |
| Moderator.ModeratePipeline | pydabot/src/main/java/com/pydawan/pydabot/listeners/Moderator.java:34-43 | `onMessage` classifies the text and gives the sender and the severity to the policy; a reply is sent if and only if the policy returns one, and it is that exact string; nothing is sent if and only if the policy returns null |
| Moderator.OnlySeverityMatters | pydabot/src/main/java/com/pydawan/pydabot/listeners/Moderator.java:35-38 | two messages from one sender with the same severity get the same outcome |
| Moderator.MapModeratorNeverSilent | pydabot/src/main/java/com/pydawan/pydabot/listeners/Moderator.java:31 | the map variant always replies or throws; it throws `NullPointerException` if and only if the severity is unmapped; otherwise it replies with the mapped template formatted with the sender |
| Moderator.MapModeratorFillsSlot | pydabot/src/main/java/com/pydawan/pydabot/listeners/Moderator.java:31 | a severity mapped to a one-slot template is answered with the sender's nick in the slot |
| Moderator.SpamWarnsSender | pydabot/src/main/java/com/pydawan/pydabot/listeners/Moderator.java:31-38 | with the example map, every message classified `ban` is answered with the sender followed by " has been warned" |
| Moderator.SpamExampleWarns | pydabot/src/main/java/com/pydawan/pydabot/listeners/Moderator.java:34-38 | "buy spam now" from alice is answered "alice has been warned" |
| Moderator.HelloExampleThrows | pydabot/src/main/java/com/pydawan/pydabot/listeners/Moderator.java:31-38 | "hello" is classified none, which the example map lacks, so `NullPointerException` is thrown rather than no reply |
| Announcements.Walk | pydabot/src/main/java/com/pydawan/pydabot/workers/AnnouncementWorker.java:78-86 | the loop stops at the first index whose running weight sum exceeds the draw, or falls back to the last index when none does |
| Announcements.Pick | pydabot/src/main/java/com/pydawan/pydabot/workers/AnnouncementWorker.java:71-88 | an empty list throws `NoSuchElementException`, and only it does; otherwise the index is in range and is where the walk over `Math.random() * totalWeight` stops |
| Announcements.WalkPicksUnique | pydabot/src/main/java/com/pydawan/pydabot/workers/AnnouncementWorker.java:80-86 | at most one index fits the walk's stopping rule |
| Announcements.CumMonotone | pydabot/src/main/java/com/pydawan/pydabot/workers/AnnouncementWorker.java:80-81 | with no negative weight the running sum never decreases |
| Announcements.SelectionInterval | pydabot/src/main/java/com/pydawan/pydabot/workers/AnnouncementWorker.java:76-86 | with non-negative weights and a draw in `[0, total)`, index k is chosen if and only if `cum(k) <= r < cum(k+1)`; the interval's width is k's weight; the fallback is never reached |
| Announcements.DrawInRange | pydabot/src/main/java/com/pydawan/pydabot/workers/AnnouncementWorker.java:77 | `Math.random() * totalWeight` lies in `[0, total)` for a positive total |
| Announcements.SelectionProbability | pydabot/src/main/java/com/pydawan/pydabot/workers/AnnouncementWorker.java:76-84 | index k is chosen if and only if the draw `u` lies in `[cum(k)/total, cum(k+1)/total)`, a share of `[0, 1)` of width `weight(k)/total` |
| Announcements.PickIsWeighted | pydabot/src/main/java/com/pydawan/pydabot/workers/AnnouncementWorker.java:71-88 | `randomAnnouncement` selects index k if and only if `u` falls in k's share, of width `weight(k)/total` |
| Announcements.AllZeroPicksLast | pydabot/src/main/java/com/pydawan/pydabot/workers/AnnouncementWorker.java:86 | when every weight is zero, no running sum exceeds the draw and the last announcement is returned |
| Announcements.FirstIndex | pydabot/src/main/java/com/pydawan/pydabot/workers/AnnouncementWorker.java:105 | the position found holds the element, and no earlier position does |
| Announcements.RemoveFirst | pydabot/src/main/java/com/pydawan/pydabot/workers/AnnouncementWorker.java:104-106 | `Vector.remove` takes out exactly one copy, the first, keeping the others in order; without a copy the list is unchanged |
| Announcements.RemoveFirstAfterPrefix | pydabot/src/main/java/com/pydawan/pydabot/workers/AnnouncementWorker.java:105 | after a prefix without the element, removal drops the element that follows the prefix |
| Announcements.AppendThenRemoveFirst | pydabot/src/main/java/com/pydawan/pydabot/workers/AnnouncementWorker.java:95-106 | appending an element the list lacks and removing it restores the list |
| AnnouncementWorker.Create | pydabot/src/main/java/com/pydawan/pydabot/workers/AnnouncementWorker.java:38-40 | the worker keeps the bot and starts with no announcements |
| AnnouncementWorker.CreateWith | pydabot/src/main/java/com/pydawan/pydabot/workers/AnnouncementWorker.java:49-52 | the collection constructor keeps the bot and the elements in iteration order |
| AnnouncementWorker.RandomAnnouncement | pydabot/src/main/java/com/pydawan/pydabot/workers/AnnouncementWorker.java:71-88 | throws `NoSuchElementException` if and only if the list is empty; otherwise returns a member of the list, the one at the walk's index |
| AnnouncementWorker.Run | pydabot/src/main/java/com/pydawan/pydabot/workers/AnnouncementWorker.java:58-64 | a null bot means nothing happens; with a bot, an empty list throws rather than skipping; otherwise the chosen message goes through the bot to `channelOf` of its channel |
| AnnouncementWorker.AddAnnouncement | pydabot/src/main/java/com/pydawan/pydabot/workers/AnnouncementWorker.java:95-97 | appends at the end, leaving the earlier announcements and the bot unchanged |
| AnnouncementWorker.RemoveAnnouncement | pydabot/src/main/java/com/pydawan/pydabot/workers/AnnouncementWorker.java:104-106 | removes one copy, the first, keeping the others in order; an absent announcement leaves the worker unchanged |
| AnnouncementWorker.ClearAnnouncements | pydabot/src/main/java/com/pydawan/pydabot/workers/AnnouncementWorker.java:111-113 | empties the list and keeps the bot |
| AnnouncementWorker.GetAnnouncements | pydabot/src/main/java/com/pydawan/pydabot/workers/AnnouncementWorker.java:120-122 | the view loses nothing: adding its elements one by one to a fresh worker with the same bot, or passing it to the collection constructor, rebuilds the worker |
| AnnouncementWorker.AddEachAppends | pydabot/src/main/java/com/pydawan/pydabot/workers/AnnouncementWorker.java:51 | adding a sequence one by one appends all of it in order |
| AnnouncementWorker.CreateWithIsRepeatedAdd | pydabot/src/main/java/com/pydawan/pydabot/workers/AnnouncementWorker.java:49-52 | the collection constructor equals the plain constructor followed by `addAnnouncement` of every element in order |
| AnnouncementWorker.RunSendsWeightedChoice | pydabot/src/main/java/com/pydawan/pydabot/workers/AnnouncementWorker.java:58-88 | with a bot and non-negative weights, `run` sends announcement k's message to its channel when `u` falls in k's share of width `weight(k)/total` (only this direction: another announcement with the same channel and text sends the same message; the if-and-only-if is `Announcements.PickIsWeighted`, on the index) |
| AnnouncementWorker.SingleAnnouncementAlwaysSent | pydabot/src/main/java/com/pydawan/pydabot/workers/AnnouncementWorker.java:58-88 | a lone announcement is always sent, whatever its weight and the draw |
| AnnouncementWorker.ClearedWorkerThrows | pydabot/src/main/java/com/pydawan/pydabot/workers/AnnouncementWorker.java:58-74 | after `clearAnnouncements`, `run` throws with a bot and does nothing without one |
| AnnouncementWorker.AddThenRemoveRestores | pydabot/src/main/java/com/pydawan/pydabot/workers/AnnouncementWorker.java:95-106 | adding a new announcement and removing it restores the worker |
| AnnouncementWorker.RemoveTakesFirstCopy | pydabot/src/main/java/com/pydawan/pydabot/workers/AnnouncementWorker.java:104-106 | with two copies added, removal takes the earlier one |
| AnnounceWorker.Create | pydabot/src/main/java/com/pydawan/pydabot/workers/AnnounceWorker.java:26-28 | the worker keeps the bot and starts with no announces |
| AnnounceWorker.RandomAnnounce | pydabot/src/main/java/com/pydawan/pydabot/workers/AnnounceWorker.java:39-55 | throws `NoSuchElementException` if and only if the list is empty; otherwise returns a member, the one at the walk's index |
| AnnounceWorker.Run | pydabot/src/main/java/com/pydawan/pydabot/workers/AnnounceWorker.java:31-37 | a null bot means nothing happens; otherwise the chosen message goes to `channelOf` of its channel, or the empty list throws |
| AnnounceWorker.AddAnnounce | pydabot/src/main/java/com/pydawan/pydabot/workers/AnnounceWorker.java:57-59 | appends at the end, leaving the rest unchanged |
| AnnounceWorker.RemoveAnnounce | pydabot/src/main/java/com/pydawan/pydabot/workers/AnnounceWorker.java:61-63 | removes the first equal announce only, keeping the others in order |
| AnnounceWorker.ClearAnnounces | pydabot/src/main/java/com/pydawan/pydabot/workers/AnnounceWorker.java:65-67 | empties the list and keeps the bot |
| AnnounceWorker.GetAnnounces | pydabot/src/main/java/com/pydawan/pydabot/workers/AnnounceWorker.java:69-71 | the view loses nothing: adding its elements one by one to a fresh worker with the same bot rebuilds the worker |
| AnnounceWorker.SameAsAnnouncementWorker | pydabot/src/main/java/com/pydawan/pydabot/workers/AnnounceWorker.java:26-67 | the near-duplicate worker picks, sends, adds, removes and clears exactly as `AnnouncementWorker` does |
| AnnounceWorker.RunSendsWeightedChoice | pydabot/src/main/java/com/pydawan/pydabot/workers/AnnounceWorker.java:31-55 | with a bot and non-negative weights, announce k is sent when `u` falls in k's share of `[0, 1)` (only this direction, as for `AnnouncementWorker.RunSendsWeightedChoice`) |
| AnnounceWorker.AddThenRemoveRestores | pydabot/src/main/java/com/pydawan/pydabot/workers/AnnounceWorker.java:57-63 | adding a new announce and removing it restores the worker |
| AnnounceWorker.ClearedWorkerThrows | pydabot/src/main/java/com/pydawan/pydabot/workers/AnnounceWorker.java:31-67 | after `clearAnnounces`, `run` with a bot throws `NoSuchElementException` |

## Left out

- `Bot.java` (thread start/join, PircBotX configuration, channel and listener sets) is concurrency and library plumbing. `App.java` (command line, bootstrap), `Pong.java` (one library call), `BotException.java` and `Command.java` (a handler type, here the type parameter `H`) are not part of this model.
- `Math.random()` is the parameter `u`, and weights are exact reals rather than `double`s. The rounding that makes the last-element fallback reachable with positive weights is not modelled. The fallback is still modelled as the source writes it.
- `Vector` synchronisation and the `volatile` bot field: each list operation and each `run` is one atomic step on an immutable value.
- The bot's getter and setter (Lombok) are not modelled; the bot is the worker's `bot` field. Unmodifiability of the list views holds trivially for an immutable sequence.
- The bot's `send().message` and `event.respond` are output values: `RunOutcome.Sent` with the target and the text, and the reply string. PircBotX's addressing of a reply (the `nick: ` prefix in a channel) is library behaviour.
- Null arguments to the listener constructors are not modelled: `CommandListener`'s `@NonNull` command map, the `SimpleCommandListener` mapping, map and prefix, and the `Moderator` map. A classifier that returns null is not modelled either. `Moderator`'s two function arguments are modelled: their null check is `Moderator.Create`.
- The Java regex engine, `String.split`, `stripLeading` and `String.formatted` are written out only for the one pattern, the two separator classes and the templates used here.
- IrcUtils.ChannelOf: takes a string, never null. In Java `channelOf(null)` is `"#null"`, which is also the target of an announcement whose channel is null.
- AnnouncementWorker.AddAnnouncement: adds an announcement, never null. In Java `addAnnouncement(null)` stores a null element, after which every `randomAnnouncement` throws `NullPointerException` at `Announcement::getWeight`. In the same way `removeAnnouncement(null)` removes the first null element, and `new AnnouncementWorker(bot, null)` throws `NullPointerException` at `addAll`. `AnnounceWorker.AddAnnounce` and `AnnounceWorker.RemoveAnnounce` leave out the same null cases.
- AnnouncementWorker.GetAnnouncements: returns the list as it is at the call, a value. Java returns a live unmodifiable view (`Collections.unmodifiableList`), through which a caller that kept it sees later adds, removes and clears. The model has no shared mutable state, so that aliasing is lost; a caller that calls again sees the current list.
- AnnounceWorker.GetAnnounces: returns the list as it is at the call, a value, where Java returns a live unmodifiable view that shows later adds, removes and clears. The aliasing is lost for the same reason.
- SimpleCommandListener.FromMap: takes the map as a value copied at construction. Java stores `map::get` on the caller's map, so a later `put` or `remove` changes later replies; the model has no shared mutable state, so that aliasing is lost. A Java key mapped to null, which `get` treats as absent, cannot be written either; it behaves as an absent key.
- Moderator.CreateFromMap: takes the map as a value copied at construction. Java's policy lambda reads the caller's map at each message, so a later `put` or `remove` changes later replies; that aliasing is lost for the same reason. A key mapped to null behaves as an absent key, as in Java (`map.get` is null and `formatted` throws `NullPointerException`), but cannot be written.
- The injected `CommandListener` command map, the `SimpleCommandListener` mapping and the `Moderator` classifier are total functions, assumed not to throw. An exception from one of them, which Java propagates out of `onMessage`, is not represented. Only the `Moderator` policy's exception is modelled.
- JavaFormat.Format: handles only `%s` with one argument and the escape `%%`. Every other `%` sequence is reported as one `IllegalFormatException`: a trailing `%`, another conversion, a second `%s`, and flags or widths. Java distinguishes `MissingFormatArgumentException`, `UnknownFormatConversionException` and others, and accepts other conversions.
- `Announcement` and `Announce` are not part of this model. The workers read them only through `getChannel`, `getMessage` and `getWeight`, so both are one record (channel, message, weight), and `Vector.remove` uses structural equality on it. The classes' constructors and real `equals` are not visible.
- Severity is a type parameter. `Moderator.Severity` (none, warn, ban) exists only for the example moderator `Moderator.SpamModerator`. The example classifier's `contains` is a plain substring test.

=== FILE: announce_worker.dfy ===
/** The near-duplicate announce worker (`AnnounceWorker`): the same weighted pick
    and list operations as the announcement worker over `Announce` values, with
    only the bot-only constructor. `Announce` is read only through `getChannel`,
    `getMessage` and `getWeight`, so it shares the announcement record here. */
module AnnounceWorker {
  import opened Wrappers
  import opened JavaLang
  import opened IrcUtils
  import opened Announcements
  import AnnouncementWorker

  /** The constructor: the bot and no announces. */
  function Create<B>(bot: Option<B>): (w: Worker<B>)
    ensures w.bot == bot
    ensures |w.announcements| == 0
  {
    Worker(bot, [])
  }

  /** `randomAnnounce` for the draw `u` of `Math.random()`: throws on an empty
      list; otherwise an announce at the index the weighted walk selects. */
  function RandomAnnounce<B>(w: Worker<B>, u: real): (res: Result<Announcement, JavaException>)
    ensures res.Failure? <==> |w.announcements| == 0
    ensures res.Failure? ==> res.error == NoSuchElementException
    ensures res.Success? ==> res.value in w.announcements
    ensures res.Success? ==>
      exists k :: 0 <= k < |w.announcements| && Pick(w.announcements, u) == Success(k)
        && res.value == w.announcements[k]
  {
    match Pick(w.announcements, u)
    case Failure(e) => Failure(e)
    case Success(k) => Success(w.announcements[k])
  }

  /** `run`: nothing without a bot; with one, the selected announce's message to
      `#` followed by its channel, or the exception of an empty list. */
  function Run<B>(w: Worker<B>, u: real): (out: RunOutcome<B>)
    ensures w.bot.None? <==> out.NothingSent?
    ensures out.Threw? <==> w.bot.Some? && |w.announcements| == 0
    ensures out.Threw? ==> out.exception == NoSuchElementException
    ensures out.Sent? ==> out.via == w.bot.value
    ensures out.Sent? ==> RandomAnnounce(w, u).Success?
    ensures out.Sent? ==> out.target == ChannelOf(RandomAnnounce(w, u).value.channel)
    ensures out.Sent? ==> out.message == RandomAnnounce(w, u).value.message
  {
    if w.bot.None? then NothingSent
    else
      match RandomAnnounce(w, u)
      case Failure(e) => Threw(e)
      case Success(a) => Sent(w.bot.value, ChannelOf(a.channel), a.message)
  }

  /** `addAnnounce`: appends, duplicates included. */
  function AddAnnounce<B>(w: Worker<B>, a: Announcement): (r: Worker<B>)
    ensures r.bot == w.bot
    ensures |r.announcements| == |w.announcements| + 1
    ensures r.announcements[..|w.announcements|] == w.announcements
    ensures r.announcements[|w.announcements|] == a
  {
    Worker(w.bot, w.announcements + [a])
  }

  /** `removeAnnounce`: drops the first equal announce, if there is one. */
  function RemoveAnnounce<B>(w: Worker<B>, a: Announcement): (r: Worker<B>)
    ensures r.bot == w.bot
    ensures multiset(r.announcements) == multiset(w.announcements) - multiset{a}
    ensures a !in w.announcements ==> r == w
    ensures a in w.announcements ==>
      exists i :: 0 <= i < |w.announcements| && w.announcements[i] == a && a !in w.announcements[..i]
        && r.announcements == w.announcements[..i] + w.announcements[i + 1..]
  {
    Worker(w.bot, RemoveFirst(w.announcements, a))
  }

  /** `clearAnnounces`. */
  function ClearAnnounces<B>(w: Worker<B>): (r: Worker<B>)
    ensures r.bot == w.bot
    ensures |r.announcements| == 0
  {
    Worker(w.bot, [])
  }

  /** `getAnnounces`: a read-only view of the current list. The view loses
      nothing: adding its elements one by one to a fresh worker with the same bot
      rebuilds the worker. */
  function GetAnnounces<B>(w: Worker<B>): (r: seq<Announcement>)
    ensures AnnouncementWorker.AddEach(Create(w.bot), r) == w
  {
    AnnouncementWorker.AddEachAppends(Create(w.bot), w.announcements);
    w.announcements
  }

  /** The two workers behave alike: same pick, same sends, same list operations. */
  lemma SameAsAnnouncementWorker<B>(w: Worker<B>, u: real, a: Announcement)
    ensures RandomAnnounce(w, u) == AnnouncementWorker.RandomAnnouncement(w, u)
    ensures Run(w, u) == AnnouncementWorker.Run(w, u)
    ensures Create<B>(w.bot) == AnnouncementWorker.Create(w.bot)
    ensures AddAnnounce(w, a) == AnnouncementWorker.AddAnnouncement(w, a)
    ensures RemoveAnnounce(w, a) == AnnouncementWorker.RemoveAnnouncement(w, a)
    ensures ClearAnnounces(w) == AnnouncementWorker.ClearAnnouncements(w)
  {
  }

  /** With a bot, no negative weight and a positive total, `run` sends announce
      `k` when the draw falls in `k`'s share of `[0, 1)`, of width
      `weight(k)/total`. The converse holds for the index
      (`Announcements.PickIsWeighted`), not for the sent message, which another
      announce with the same channel and text can also produce. */
  lemma RunSendsWeightedChoice<B>(w: Worker<B>, u: real, k: int)
    requires w.bot.Some? && NonNegative(w.announcements) && Total(w.announcements) > 0.0
    requires 0.0 <= u < 1.0 && 0 <= k < |w.announcements|
    ensures var xs := w.announcements;
      (Run(w, u) == Sent(w.bot.value, ChannelOf(xs[k].channel), xs[k].message)) <==
        (Cum(xs, k) / Total(xs) <= u < Cum(xs, k + 1) / Total(xs))
  {
    SameAsAnnouncementWorker(w, u, w.announcements[k]);
    AnnouncementWorker.RunSendsWeightedChoice(w, u, k);
  }

  /** Adding a new announce and removing it again restores the worker. */
  lemma AddThenRemoveRestores<B>(w: Worker<B>, a: Announcement)
    requires a !in w.announcements
    ensures RemoveAnnounce(AddAnnounce(w, a), a) == w
  {
    AppendThenRemoveFirst(w.announcements, a);
  }

  /** A cleared worker with a bot throws on its next `run`. */
  lemma ClearedWorkerThrows<B>(bot: B, w: Worker<B>, u: real)
    requires w.bot == Some(bot)
    ensures Run(ClearAnnounces(w), u) == Threw(NoSuchElementException)
  {
  }
}

=== FILE: announcement_worker.dfy ===
/** The announcement worker (`AnnouncementWorker`): each `run` sends one
    announcement, chosen at random with probability proportional to its weight,
    to its channel through the bot, and does nothing while the bot is null. The
    list operations are those of the underlying `Vector`. */
module AnnouncementWorker {
  import opened Wrappers
  import opened JavaLang
  import opened IrcUtils
  import opened Announcements

  /** The constructor taking only the bot: no announcements yet. */
  function Create<B>(bot: Option<B>): (w: Worker<B>)
    ensures w.bot == bot
    ensures |w.announcements| == 0
  {
    Worker(bot, [])
  }

  /** The constructor taking a collection: its elements, in iteration order. */
  function CreateWith<B>(bot: Option<B>, items: seq<Announcement>): (w: Worker<B>)
    ensures w.bot == bot
    ensures w.announcements == items
  {
    Worker(bot, items)
  }

  /** `randomAnnouncement` for the draw `u` of `Math.random()`: throws on an empty
      list; otherwise the announcement at the index the weighted walk selects. */
  function RandomAnnouncement<B>(w: Worker<B>, u: real): (res: Result<Announcement, JavaException>)
    ensures res.Failure? <==> |w.announcements| == 0
    ensures res.Failure? ==> res.error == NoSuchElementException
    ensures res.Success? ==> res.value in w.announcements
    ensures res.Success? ==>
      exists k :: 0 <= k < |w.announcements| && Pick(w.announcements, u) == Success(k)
        && res.value == w.announcements[k]
  {
    match Pick(w.announcements, u)
    case Failure(e) => Failure(e)
    case Success(k) => Success(w.announcements[k])
  }

  /** `run`: nothing without a bot; with one, the selected announcement's message
      to `#` followed by its channel, or the exception of an empty list. */
  function Run<B>(w: Worker<B>, u: real): (out: RunOutcome<B>)
    ensures w.bot.None? <==> out.NothingSent?
    ensures out.Threw? <==> w.bot.Some? && |w.announcements| == 0
    ensures out.Threw? ==> out.exception == NoSuchElementException
    ensures out.Sent? ==> out.via == w.bot.value
    ensures out.Sent? ==> RandomAnnouncement(w, u).Success?
    ensures out.Sent? ==> out.target == ChannelOf(RandomAnnouncement(w, u).value.channel)
    ensures out.Sent? ==> out.message == RandomAnnouncement(w, u).value.message
  {
    match w.bot
    case None => NothingSent
    case Some(bot) =>
      match RandomAnnouncement(w, u)
      case Failure(e) => Threw(e)
      case Success(a) => Sent(bot, ChannelOf(a.channel), a.message)
  }

  /** `addAnnouncement`: appends, duplicates included. */
  function AddAnnouncement<B>(w: Worker<B>, a: Announcement): (r: Worker<B>)
    ensures r.bot == w.bot
    ensures |r.announcements| == |w.announcements| + 1
    ensures r.announcements[..|w.announcements|] == w.announcements
    ensures r.announcements[|w.announcements|] == a
  {
    w.(announcements := w.announcements + [a])
  }

  /** `removeAnnouncement`: drops the first equal announcement, if there is one. */
  function RemoveAnnouncement<B>(w: Worker<B>, a: Announcement): (r: Worker<B>)
    ensures r.bot == w.bot
    ensures multiset(r.announcements) == multiset(w.announcements) - multiset{a}
    ensures a !in w.announcements ==> r == w
    ensures a in w.announcements ==> |r.announcements| == |w.announcements| - 1
    ensures a in w.announcements ==>
      exists i :: 0 <= i < |w.announcements| && w.announcements[i] == a && a !in w.announcements[..i]
        && r.announcements == w.announcements[..i] + w.announcements[i + 1..]
  {
    w.(announcements := RemoveFirst(w.announcements, a))
  }

  /** `clearAnnouncements`. */
  function ClearAnnouncements<B>(w: Worker<B>): (r: Worker<B>)
    ensures r.bot == w.bot
    ensures |r.announcements| == 0
  {
    w.(announcements := [])
  }

  /** `getAnnouncements`: a read-only view of the current list. The view loses
      nothing: adding its elements one by one to a fresh worker with the same bot,
      or passing it to the collection constructor, rebuilds the worker. */
  function GetAnnouncements<B>(w: Worker<B>): (r: seq<Announcement>)
    ensures AddEach(Create(w.bot), r) == w
    ensures CreateWith(w.bot, r) == w
  {
    AddEachAppends(Create(w.bot), w.announcements);
    w.announcements
  }

  /** Adds the announcements one by one, in order. */
  function AddEach<B>(w: Worker<B>, items: seq<Announcement>): Worker<B>
    decreases |items|
  {
    if |items| == 0 then w else AddEach(AddAnnouncement(w, items[0]), items[1..])
  }

  /** Adding one by one appends the whole sequence and keeps the bot. */
  lemma {:induction false} AddEachAppends<B>(w: Worker<B>, items: seq<Announcement>)
    ensures AddEach(w, items) == Worker(w.bot, w.announcements + items)
    decreases |items|
  {
    if |items| > 0 {
      AddEachAppends(AddAnnouncement(w, items[0]), items[1..]);
      assert w.announcements + [items[0]] + items[1..] == w.announcements + items;
    }
  }

  /** The collection constructor is the plain constructor followed by
      `addAnnouncement` of every element in order (`addAll`). */
  lemma CreateWithIsRepeatedAdd<B>(bot: Option<B>, items: seq<Announcement>)
    ensures CreateWith(bot, items) == AddEach(Create(bot), items)
  {
    AddEachAppends(Create(bot), items);
  }

  /** With a bot, no negative weight and a positive total, `run` sends the message
      of announcement `k` to its channel when the draw falls in `k`'s share of
      `[0, 1)`, of width `weight(k)/total`. The converse holds for the index
      (`Announcements.PickIsWeighted`), not for the sent message, which another
      announcement with the same channel and text can also produce. */
  lemma RunSendsWeightedChoice<B>(w: Worker<B>, u: real, k: int)
    requires w.bot.Some? && NonNegative(w.announcements) && Total(w.announcements) > 0.0
    requires 0.0 <= u < 1.0 && 0 <= k < |w.announcements|
    ensures var xs := w.announcements;
      Cum(xs, k) / Total(xs) <= u < Cum(xs, k + 1) / Total(xs) ==>
        Run(w, u) == Sent(w.bot.value, ChannelOf(xs[k].channel), xs[k].message)
    ensures var xs := w.announcements;
      Cum(xs, k + 1) / Total(xs) - Cum(xs, k) / Total(xs) == xs[k].weight / Total(xs)
  {
    PickIsWeighted(w.announcements, u, k);
  }

  /** With a bot, a single announcement is sent whatever the draw, even when its
      weight is zero or negative. */
  lemma SingleAnnouncementAlwaysSent<B>(bot: B, a: Announcement, u: real)
    ensures Run(Worker(Some(bot), [a]), u) == Sent(bot, ChannelOf(a.channel), a.message)
  {
  }

  /** A worker whose list was cleared throws on its next `run` when it has a bot,
      and sends nothing when it has none. */
  lemma ClearedWorkerThrows<B>(w: Worker<B>, u: real)
    ensures w.bot.Some? ==> Run(ClearAnnouncements(w), u) == Threw(NoSuchElementException)
    ensures w.bot.None? ==> Run(ClearAnnouncements(w), u) == NothingSent
  {
  }

  /** Adding a new announcement and removing it again restores the worker. */
  lemma AddThenRemoveRestores<B>(w: Worker<B>, a: Announcement)
    requires a !in w.announcements
    ensures RemoveAnnouncement(AddAnnouncement(w, a), a) == w
  {
    AppendThenRemoveFirst(w.announcements, a);
  }

  /** Removing an announcement added twice leaves the later copy. */
  lemma RemoveTakesFirstCopy<B>(w: Worker<B>, a: Announcement)
    requires a !in w.announcements
    ensures RemoveAnnouncement(AddAnnouncement(AddAnnouncement(w, a), a), a) == AddAnnouncement(w, a)
  {
    RemoveFirstAfterPrefix(w.announcements, [a, a], a);
    assert w.announcements + [a] + [a] == w.announcements + [a, a];
    assert w.announcements + [a, a][1..] == w.announcements + [a];
  }
}

=== FILE: announcements.dfy ===
/** What the two announcement workers share: the announcement record, the
    weighted walk of `randomAnnouncement` / `randomAnnounce`, `Vector.remove` of
    the first equal element, and the worker state. Weights are exact reals where
    the source has doubles, and the draw `Math.random()` is a parameter `u`. */
module Announcements {
  import opened Wrappers
  import opened JavaLang

  /** An announcement, as the workers read it through `getChannel`, `getMessage`
      and `getWeight`: the bare channel name, the text, and its selection weight.
      The workers never check a weight, and the class itself is not part of this
      model, so the weight may be any real. */
  datatype Announcement = Announcement(channel: string, message: string, weight: real)

  /** A worker: the bot to send through (absent while it is null) and the
      announcements in iteration order. */
  datatype Worker<B> = Worker(bot: Option<B>, announcements: seq<Announcement>)

  /** What one `run` did: nothing (no bot), one message sent through the bot to a
      target channel, or an exception. */
  datatype RunOutcome<B> =
    | NothingSent
    | Sent(via: B, target: string, message: string)
    | Threw(exception: JavaException)

  /** Running weight sum of the first `n` announcements. */
  function Cum(xs: seq<Announcement>, n: nat): real
    requires n <= |xs|
    decreases n
  {
    if n == 0 then 0.0 else Cum(xs, n - 1) + xs[n - 1].weight
  }

  /** Sum of all weights (`totalWeight`). */
  function Total(xs: seq<Announcement>): real {
    Cum(xs, |xs|)
  }

  /** No weight is negative. */
  predicate NonNegative(xs: seq<Announcement>) {
    forall i :: 0 <= i < |xs| ==> xs[i].weight >= 0.0
  }

  /** `k` is the first index at which the running sum exceeds `r`. */
  predicate FirstAbove(xs: seq<Announcement>, r: real, k: int) {
    && 0 <= k < |xs|
    && r < Cum(xs, k + 1)
    && forall j :: 1 <= j <= k ==> Cum(xs, j) <= r
  }

  /** The running sum exceeds `r` somewhere. */
  predicate SomeAbove(xs: seq<Announcement>, r: real) {
    exists j :: 1 <= j <= |xs| && r < Cum(xs, j)
  }

  /** Where the walk stops: the first index whose running sum exceeds `r`, or the
      last index when none does. */
  predicate WalkPicks(xs: seq<Announcement>, r: real, k: int) {
    FirstAbove(xs, r, k) || (0 < |xs| && !SomeAbove(xs, r) && k == |xs| - 1)
  }

  /** The for-each loop from index `i`, with `current` the running sum so far. */
  function Walk(xs: seq<Announcement>, r: real, i: nat, current: real): (k: nat)
    requires 0 < |xs| && i <= |xs| && current == Cum(xs, i)
    requires forall j :: 1 <= j <= i ==> Cum(xs, j) <= r
    ensures WalkPicks(xs, r, k)
    decreases |xs| - i
  {
    if i == |xs| then |xs| - 1
    else
      var next := current + xs[i].weight;
      if r < next then i else Walk(xs, r, i + 1, next)
  }

  /** The index `randomAnnouncement` chooses when `Math.random()` returns `u`: it
      throws on an empty list, and otherwise walks with `r = u * totalWeight`. */
  function Pick(xs: seq<Announcement>, u: real): (res: Result<nat, JavaException>)
    ensures res.Failure? <==> |xs| == 0
    ensures res.Failure? ==> res.error == NoSuchElementException
    ensures res.Success? ==> res.value < |xs| && WalkPicks(xs, u * Total(xs), res.value)
  {
    if |xs| == 0 then Failure(NoSuchElementException)
    else Success(Walk(xs, u * Total(xs), 0, 0.0))
  }

  /** The walk is deterministic: at most one index fits. */
  lemma WalkPicksUnique(xs: seq<Announcement>, r: real, k1: int, k2: int)
    requires WalkPicks(xs, r, k1) && WalkPicks(xs, r, k2)
    ensures k1 == k2
  {
  }

  /** With no negative weight the running sum never decreases. */
  lemma {:induction false} CumMonotone(xs: seq<Announcement>, a: nat, b: nat)
    requires NonNegative(xs) && a <= b <= |xs|
    ensures Cum(xs, a) <= Cum(xs, b)
    decreases b - a
  {
    if a < b {
      CumMonotone(xs, a, b - 1);
      assert xs[b - 1].weight >= 0.0;
    }
  }

  /** With no negative weight and a draw in `[0, total)`, index `k` is chosen
      exactly when `r` lies in `[cum(k), cum(k+1))`, an interval whose width is the
      weight of `k`; the last-element fallback is never reached. */
  lemma SelectionInterval(xs: seq<Announcement>, r: real, k: int)
    requires NonNegative(xs) && 0.0 <= r < Total(xs) && 0 <= k < |xs|
    ensures SomeAbove(xs, r)
    ensures WalkPicks(xs, r, k) <==> Cum(xs, k) <= r < Cum(xs, k + 1)
    ensures Cum(xs, k + 1) - Cum(xs, k) == xs[k].weight
  {
    assert r < Cum(xs, |xs|);
    if WalkPicks(xs, r, k) {
      if k > 0 {
        assert Cum(xs, k) <= r;
      }
    }
    if Cum(xs, k) <= r < Cum(xs, k + 1) {
      forall j | 1 <= j <= k ensures Cum(xs, j) <= r {
        CumMonotone(xs, j, k);
      }
      assert FirstAbove(xs, r, k);
    }
  }

  /** `Math.random() * totalWeight` lies in `[0, total)` when the total is positive. */
  lemma DrawInRange(xs: seq<Announcement>, u: real)
    requires 0.0 <= u < 1.0 && Total(xs) > 0.0
    ensures 0.0 <= u * Total(xs) < Total(xs)
  {
    FractionBelow(u, Total(xs));
  }

  /** A fraction in `[0, 1)` of a positive amount lies in `[0, amount)`. */
  lemma FractionBelow(u: real, t: real)
    requires 0.0 <= u < 1.0 && t > 0.0
    ensures 0.0 <= u * t < t
  {
    assert t - u * t == (1.0 - u) * t;
    assert (1.0 - u) * t > 0.0;
  }

  /** For a draw `u` of `Math.random()` and a positive total, index `k` is chosen
      exactly when `u` lies in `[cum(k)/total, cum(k+1)/total)`: a share of
      `[0, 1)` of width `weight(k)/total`. */
  lemma SelectionProbability(xs: seq<Announcement>, u: real, k: int)
    requires NonNegative(xs) && Total(xs) > 0.0 && 0.0 <= u < 1.0 && 0 <= k < |xs|
    ensures WalkPicks(xs, u * Total(xs), k) <==>
              Cum(xs, k) / Total(xs) <= u < Cum(xs, k + 1) / Total(xs)
    ensures Cum(xs, k + 1) / Total(xs) - Cum(xs, k) / Total(xs) == xs[k].weight / Total(xs)
  {
    FractionBelow(u, Total(xs));
    SelectionInterval(xs, u * Total(xs), k);
    ShareOfDraw(Cum(xs, k), Cum(xs, k + 1), u, Total(xs));
  }

  /** Comparing a draw scaled by a positive total with two running sums is
      comparing the draw with the sums divided by the total. */
  lemma ShareOfDraw(lo: real, hi: real, u: real, t: real)
    requires t > 0.0
    ensures (lo <= u * t < hi) <==> (lo / t <= u < hi / t)
    ensures hi / t - lo / t == (hi - lo) / t
  {
    ScaleBelow(lo, u, t);
    ScaleBelow(hi, u, t);
  }

  /** The selection as `randomAnnouncement` performs it: with no negative weight
      and a positive total, the draw `u` selects index `k` exactly when `u` lies in
      `k`'s share of `[0, 1)`, whose width is `weight(k)/total`. */
  lemma PickIsWeighted(xs: seq<Announcement>, u: real, k: int)
    requires NonNegative(xs) && Total(xs) > 0.0 && 0.0 <= u < 1.0 && 0 <= k < |xs|
    ensures (Pick(xs, u) == Success(k)) <==>
              (Cum(xs, k) / Total(xs) <= u < Cum(xs, k + 1) / Total(xs))
    ensures Cum(xs, k + 1) / Total(xs) - Cum(xs, k) / Total(xs) == xs[k].weight / Total(xs)
  {
    SelectionProbability(xs, u, k);
    var p := Pick(xs, u).value;
    if WalkPicks(xs, u * Total(xs), k) {
      WalkPicksUnique(xs, u * Total(xs), k, p);
    }
  }

  /** Dividing by a positive total preserves order against a product with it. */
  lemma ScaleBelow(c: real, u: real, t: real)
    requires t > 0.0
    ensures c <= u * t <==> c / t <= u
    ensures u * t < c <==> u < c / t
  {
    assert c == (c / t) * t;
  }

  /** When every weight is zero the draw is 0, no running sum exceeds it, and the
      fallback picks the last announcement. */
  lemma AllZeroPicksLast(xs: seq<Announcement>, u: real)
    requires |xs| > 0
    requires forall i :: 0 <= i < |xs| ==> xs[i].weight == 0.0
    ensures Pick(xs, u) == Success(|xs| - 1)
  {
    forall j | 0 <= j <= |xs| ensures Cum(xs, j) == 0.0 {
      ZeroCum(xs, j);
    }
    assert !SomeAbove(xs, u * Total(xs));
  }

  /** Running sums of zero weights are zero. */
  lemma {:induction false} ZeroCum(xs: seq<Announcement>, n: nat)
    requires n <= |xs|
    requires forall i :: 0 <= i < |xs| ==> xs[i].weight == 0.0
    ensures Cum(xs, n) == 0.0
    decreases n
  {
    if n > 0 {
      ZeroCum(xs, n - 1);
    }
  }

  /** Index of the first element equal to `x`, or the length when there is none. */
  function FirstIndex<T(==)>(xs: seq<T>, x: T): (i: nat)
    ensures i <= |xs|
    ensures i < |xs| ==> xs[i] == x
    ensures x !in xs[..i]
    decreases |xs|
  {
    if |xs| == 0 || xs[0] == x then 0
    else
      var i := FirstIndex(xs[1..], x);
      assert xs[..i + 1] == [xs[0]] + xs[1..][..i];
      i + 1
  }

  /** `Vector.remove(Object)`: removes the first element equal to `x`, if any, and
      keeps the others in order. */
  function RemoveFirst<T(==)>(xs: seq<T>, x: T): (r: seq<T>)
    ensures x !in xs ==> r == xs
    ensures x in xs ==> exists i :: 0 <= i < |xs| && xs[i] == x && x !in xs[..i] && r == xs[..i] + xs[i + 1..]
    ensures multiset(r) == multiset(xs) - multiset{x}
  {
    var i := FirstIndex(xs, x);
    if i == |xs| then
      assert xs[..i] == xs;
      xs
    else
      assert xs == xs[..i] + [x] + xs[i + 1..];
      xs[..i] + xs[i + 1..]
  }

  /** Removing `x` from a list whose first `x` opens `ys`, after a prefix without
      `x`, drops exactly that element. */
  lemma RemoveFirstAfterPrefix<T>(xs: seq<T>, ys: seq<T>, x: T)
    requires x !in xs && |ys| > 0 && ys[0] == x
    ensures RemoveFirst(xs + ys, x) == xs + ys[1..]
  {
    var s := xs + ys;
    var i := FirstIndex(s, x);
    assert s[|xs|] == x;
    assert forall k :: 0 <= k < |xs| ==> s[k] == xs[k];
    assert i == |xs|;
    assert s[..i] == xs;
    assert s[i + 1..] == ys[1..];
  }

  /** Adding an element the list does not hold and removing it again restores the
      list. */
  lemma AppendThenRemoveFirst<T>(xs: seq<T>, x: T)
    requires x !in xs
    ensures RemoveFirst(xs + [x], x) == xs
  {
    RemoveFirstAfterPrefix(xs, [x], x);
    assert xs + [x][1..] == xs;
  }
}

=== FILE: command_listener.dfy ===
/** The generic command router (`CommandListener`): a message of the form
    `!name args…` is matched against `^!(\w+)(?:\s+(.*))?` with `matches()`, the
    argument text is split at every single whitespace character, and the handler
    the injected command map gives for `name` is called once with the event and
    the arguments. Handlers are values of a type parameter `H`; the command map is
    a function that answers `None` where the Java map function answers null. */
module CommandListener {
  import opened Wrappers
  import opened JavaLang
  import opened JavaSplit
  import opened Events

  /** What `matches()` leaves in the matcher: no match, or group 1 and group 2
      (`None` when the optional group did not take part, so `group(2)` is null). */
  datatype RegexMatch = NoMatch | Match(name: string, argText: Option<string>)

  /** One way `^!(\w+)(?:\s+(.*))?` can match the whole of `msg`: group 1 is
      `msg[1..i]`; either the optional group is absent (`i == j == |msg|`) or
      `msg[i..j]` is the `\s+` run and `msg[j..]` is the `.*` text. */
  predicate MatchesAt(msg: string, i: int, j: int) {
    && 1 < i <= |msg| && msg[0] == '!'
    && All(msg[1..i], IsWordChar)
    && ((i == |msg| && j == i)
        || (i < j <= |msg| && All(msg[i..j], IsRegexSpace) && !Any(msg[j..], IsLineTerminator)))
  }

  /** The matcher, written out for this one pattern. `\w` and `\s` are disjoint,
      so group 1 is always the whole word run after `'!'`; backtracking into `\s+`
      never helps `.*` past a line terminator, so the `\s+` run is the longest one. */
  function MatchCommand(msg: string): (m: RegexMatch)
    ensures |msg| < 2 || msg[0] != '!' || !IsWordChar(msg[1]) ==> m.NoMatch?
    ensures m.Match? ==> |m.name| > 0 && All(m.name, IsWordChar)
    ensures m.Match? && m.argText.Some? ==> !Any(m.argText.value, IsLineTerminator)
  {
    if |msg| == 0 || msg[0] != '!' then NoMatch
    else
      var body := msg[1..];
      var n := Span(body, IsWordChar);
      if n == 0 then NoMatch
      else
        var rest := body[n..];
        if |rest| == 0 then Match(body[..n], None)
        else
          var w := Span(rest, IsRegexSpace);
          if w == 0 || Any(rest[w..], IsLineTerminator) then NoMatch
          else Match(body[..n], Some(rest[w..]))
  }

  /** Every match found is a match of the pattern, and group 2 starts after the
      longest whitespace run (the greedy choice of `\s+`). */
  lemma MatchCommandSound(msg: string)
    requires MatchCommand(msg).Match?
    ensures var m := MatchCommand(msg); var i := 1 + |m.name|;
      && i <= |msg| && msg[1..i] == m.name
      && (m.argText.None? ==> i == |msg| && MatchesAt(msg, i, i))
      && (m.argText.Some? ==>
            var j := |msg| - |m.argText.value|;
            && i < j && MatchesAt(msg, i, j) && msg[j..] == m.argText.value
            && (j == |msg| || !IsRegexSpace(msg[j])))
  {
    var body := msg[1..];
    var n := Span(body, IsWordChar);
    var i := 1 + n;
    assert msg[1..i] == body[..n];
    var rest := body[n..];
    if |rest| > 0 {
      var w := Span(rest, IsRegexSpace);
      var j := i + w;
      assert msg[i..j] == rest[..w];
      assert msg[j..] == rest[w..];
    }
  }

  /** Every match of the pattern is found, with the same group 1; group 2 is
      present exactly when text follows the name, and it is never longer than the
      `.*` part of any other way of matching. */
  lemma MatchCommandComplete(msg: string, i: int, j: int)
    requires MatchesAt(msg, i, j)
    ensures MatchCommand(msg).Match?
    ensures MatchCommand(msg).name == msg[1..i]
    ensures MatchCommand(msg).argText.None? <==> i == |msg|
    ensures i < |msg| ==> |MatchCommand(msg).argText.value| <= |msg| - j
  {
    var body := msg[1..];
    assert body == msg[1..i] + body[i - 1..];
    if i < |msg| {
      assert msg[i] == msg[i..j][0];
    }
    SpanOfRun(msg[1..i], body[i - 1..], IsWordChar);
    var rest := body[i - 1..];
    assert rest == msg[i..];
    if i < |msg| {
      assert rest == msg[i..j] + msg[j..];
      var w := Span(rest, IsRegexSpace);
      assert forall x :: 0 <= x < j - i ==> rest[x] == msg[i..j][x];
      assert w >= j - i;
      assert rest[w..] == msg[j..][w - (j - i)..];
      NoneInSuffix(msg[j..], w - (j - i), IsLineTerminator);
    }
  }

  /** A message is handled at all exactly when the pattern matches it. */
  lemma MatchIffPattern(msg: string)
    ensures MatchCommand(msg).Match? <==> exists i, j :: MatchesAt(msg, i, j)
  {
    if MatchCommand(msg).Match? {
      MatchCommandSound(msg);
      var m := MatchCommand(msg);
      var i := 1 + |m.name|;
      if m.argText.None? {
        assert MatchesAt(msg, i, i);
      } else {
        assert MatchesAt(msg, i, |msg| - |m.argText.value|);
      }
    } else {
      forall i, j | MatchesAt(msg, i, j) ensures false { MatchCommandComplete(msg, i, j); }
    }
  }

  /** What happened to one message: ignored (`parseCommand` gave null), an
      exception, no handler for the name, or exactly one handler call. */
  datatype Dispatch<H> =
    | Ignored
    | Threw(exception: JavaException)
    | Unmapped(name: string)
    | Invoked(handler: H, event: MessageEvent, args: seq<string>)

  /** `parseCommand`: `Success(None)` stands for the null of a non-matching
      message; `group(2).split("\\s")` throws when group 2 is null. Otherwise the
      name is group 1 and the arguments are the whitespace-free pieces of group 2,
      in order, less every empty piece at the end (an empty group 2 still gives
      one empty argument). */
  function ParseCommand(msg: string): (r: Result<Option<(string, seq<string>)>, JavaException>)
    ensures r == Success(None) <==> MatchCommand(msg).NoMatch?
    ensures r.Failure? <==> MatchCommand(msg).Match? && MatchCommand(msg).argText.None?
    ensures r.Failure? ==> r.error == NullPointerException
    ensures r.Success? && r.value.Some? ==>
      var m := MatchCommand(msg);
      var args := r.value.value.1;
      && m.Match? && m.argText.Some? && r.value.value.0 == m.name
      && (forall k :: 0 <= k < |args| ==> !Any(args[k], IsRegexSpace))
      && |args| <= |Pieces(m.argText.value, IsRegexSpace)|
      && args == Pieces(m.argText.value, IsRegexSpace)[..|args|]
      && (forall k :: |args| <= k < |Pieces(m.argText.value, IsRegexSpace)| ==>
            Pieces(m.argText.value, IsRegexSpace)[k] == "")
      && (m.argText.value == "" ==> args == [""])
      && (m.argText.value != "" ==> args == [] || args[|args| - 1] != "")
  {
    match MatchCommand(msg)
    case NoMatch => Success(None)
    case Match(name, None) => Failure(NullPointerException)
    case Match(name, Some(text)) => Success(Some((name, Split(text, IsRegexSpace))))
  }

  /** `onMessage`: parse, look the name up, call the handler if there is one.
      A handler is only ever called with the originating event, under the name
      group 1 captured, and only when the command map gives it for that name. */
  function OnMessage<H>(commands: string -> Option<H>, event: MessageEvent): (r: Dispatch<H>)
    ensures r.Invoked? ==> r.event == event
    ensures r.Invoked? ==>
      MatchCommand(event.text).Match? && commands(MatchCommand(event.text).name) == Some(r.handler)
    ensures r.Unmapped? ==>
      MatchCommand(event.text).Match? && MatchCommand(event.text).name == r.name && commands(r.name).None?
  {
    match ParseCommand(event.text)
    case Failure(e) => Threw(e)
    case Success(None) => Ignored
    case Success(Some((name, args))) =>
      match commands(name)
      case None => Unmapped(name)
      case Some(h) => Invoked(h, event, args)
  }

  /** A message is ignored — no lookup, no call, whatever the command map —
      exactly when the pattern does not match it. */
  lemma IgnoredIffNoMatch<H>(commands: string -> Option<H>, event: MessageEvent)
    ensures OnMessage(commands, event).Ignored? <==> !exists i, j :: MatchesAt(event.text, i, j)
  {
    MatchIffPattern(event.text);
  }

  /** In particular a message that does not start with `'!'` and a word character
      is ignored. */
  lemma NotACommandIgnored<H>(commands: string -> Option<H>, event: MessageEvent)
    requires |event.text| < 2 || event.text[0] != '!' || !IsWordChar(event.text[1])
    ensures OnMessage(commands, event) == Ignored
  {
  }

  /** A bare `!name` matches, but group 2 is null and `split` throws before any
      lookup: no handler is called, whatever the command map. */
  lemma BareCommandThrows<H>(commands: string -> Option<H>, event: MessageEvent, name: string)
    requires event.text == "!" + name
    requires |name| > 0 && All(name, IsWordChar)
    ensures OnMessage(commands, event) == Threw(NullPointerException)
  {
    assert MatchesAt(event.text, |event.text|, |event.text|) by {
      assert event.text[1..|event.text|] == name;
    }
    MatchCommandComplete(event.text, |event.text|, |event.text|);
  }

  /** How the matcher reads `"!" + name + ws + text` when `ws` is the whole
      whitespace run: group 1 is `name` and group 2 is `text`, unless `text`
      holds a line terminator, which `.*` cannot cross. */
  lemma MatchOfParts(name: string, ws: string, text: string)
    requires |name| > 0 && All(name, IsWordChar)
    requires |ws| > 0 && All(ws, IsRegexSpace)
    requires text == [] || !IsRegexSpace(text[0])
    ensures MatchCommand("!" + name + ws + text) ==
      if Any(text, IsLineTerminator) then NoMatch else Match(name, Some(text))
  {
    var msg := "!" + name + ws + text;
    var body := msg[1..];
    var rest := ws + text;
    assert body == name + rest;
    assert rest[0] == ws[0];
    SpanOfRun(name, rest, IsWordChar);
    assert body[..|name|] == name;
    assert body[|name|..] == rest;
    SpanOfRun(ws, text, IsRegexSpace);
    assert rest[|ws|..] == text;
  }

  /** The routing rule for a command with argument text: the name passed to the
      map is the word run after `'!'`, unchanged (so case counts), and the
      arguments are the text after the whitespace run split at every single
      whitespace character. */
  lemma DispatchByName<H>(commands: string -> Option<H>, event: MessageEvent,
                          name: string, ws: string, text: string)
    requires event.text == "!" + name + ws + text
    requires |name| > 0 && All(name, IsWordChar)
    requires |ws| > 0 && All(ws, IsRegexSpace)
    requires text == [] || !IsRegexSpace(text[0])
    requires !Any(text, IsLineTerminator)
    ensures OnMessage(commands, event) ==
      match commands(name)
      case None => Unmapped(name)
      case Some(h) => Invoked(h, event, Split(text, IsRegexSpace))
  {
    MatchOfParts(name, ws, text);
  }

  /** Argument text holding a line terminator defeats `.*`: the message is ignored. */
  lemma LineTerminatorIgnored<H>(commands: string -> Option<H>, event: MessageEvent,
                                 name: string, ws: string, text: string)
    requires event.text == "!" + name + ws + text
    requires |name| > 0 && All(name, IsWordChar)
    requires |ws| > 0 && All(ws, IsRegexSpace)
    requires text == [] || !IsRegexSpace(text[0])
    requires Any(text, IsLineTerminator)
    ensures OnMessage(commands, event) == Ignored
  {
    MatchOfParts(name, ws, text);
  }

  /** `split` of plain word, one separator, plain word. */
  lemma SplitTwo(a: string, c: char, b: string)
    requires !Any(a, IsRegexSpace) && !Any(b, IsRegexSpace) && IsRegexSpace(c)
    ensures Pieces(a + [c] + b, IsRegexSpace) == [a, b]
  {
    PiecesAfterSeparator(a, c, b, IsRegexSpace);
    PiecesOfPlainText(b, IsRegexSpace);
  }

  /** Two separators in a row leave an empty piece between the words. */
  lemma DoubleSpacePieces(a: string, b: string)
    requires !Any(a, IsRegexSpace) && !Any(b, IsRegexSpace)
    ensures Pieces(a + "  " + b, IsRegexSpace) == [a, "", b]
  {
    assert a + "  " + b == a + [' '] + ([' '] + b);
    PiecesAfterSeparator(a, ' ', [' '] + b, IsRegexSpace);
    assert [' '] + b == [] + [' '] + b;
    PiecesAfterSeparator([], ' ', b, IsRegexSpace);
    PiecesOfPlainText(b, IsRegexSpace);
  }

  /** `"!name a b"` calls the handler for `name` with exactly `[a, b]`. */
  lemma TwoArguments<H>(commands: string -> Option<H>, event: MessageEvent,
                        name: string, a: string, b: string, h: H)
    requires event.text == "!" + name + " " + a + " " + b
    requires |name| > 0 && All(name, IsWordChar)
    requires |a| > 0 && !Any(a, IsRegexSpace) && !Any(a, IsLineTerminator)
    requires |b| > 0 && !Any(b, IsRegexSpace) && !Any(b, IsLineTerminator)
    requires commands(name) == Some(h)
    ensures OnMessage(commands, event) == Invoked(h, event, [a, b])
  {
    var text := a + " " + b;
    assert event.text == "!" + name + " " + text;
    NoneInConcat(a, " ", IsLineTerminator);
    NoneInConcat(a + " ", b, IsLineTerminator);
    assert text[0] == a[0];
    DispatchByName(commands, event, name, " ", text);
    SplitTwo(a, ' ', b);
    assert text[|a|] == ' ';
    SplitKeepsAllPieces(text, IsRegexSpace);
  }

  /** The message of the project's own test, `"!command arg1 arg2"`, calls the
      `command` handler with `["arg1", "arg2"]`. */
  lemma CommandListenerExample<H>(commands: string -> Option<H>, event: MessageEvent, h: H)
    requires event.text == "!command arg1 arg2"
    requires commands("command") == Some(h)
    ensures OnMessage(commands, event) == Invoked(h, event, ["arg1", "arg2"])
  {
    assert event.text == "!" + "command" + " " + "arg1" + " " + "arg2";
    TwoArguments(commands, event, "command", "arg1", "arg2", h);
  }

  /** `"!name "` (one trailing space) calls the handler with one empty argument. */
  lemma TrailingSpaceGivesEmptyArgument<H>(commands: string -> Option<H>, event: MessageEvent,
                                           name: string, h: H)
    requires event.text == "!" + name + " "
    requires |name| > 0 && All(name, IsWordChar)
    requires commands(name) == Some(h)
    ensures OnMessage(commands, event) == Invoked(h, event, [""])
  {
    assert event.text == "!" + name + " " + "";
    DispatchByName(commands, event, name, " ", "");
  }

  /** Two whitespace characters in a row produce an empty argument between them. */
  lemma DoubleSpaceGivesEmptyArgument<H>(commands: string -> Option<H>, event: MessageEvent,
                                         name: string, a: string, b: string, h: H)
    requires event.text == "!" + name + " " + a + "  " + b
    requires |name| > 0 && All(name, IsWordChar)
    requires |a| > 0 && !Any(a, IsRegexSpace) && !Any(a, IsLineTerminator)
    requires |b| > 0 && !Any(b, IsRegexSpace) && !Any(b, IsLineTerminator)
    requires commands(name) == Some(h)
    ensures OnMessage(commands, event) == Invoked(h, event, [a, "", b])
  {
    var text := a + "  " + b;
    assert event.text == "!" + name + " " + text;
    NoneInConcat(a, "  ", IsLineTerminator);
    NoneInConcat(a + "  ", b, IsLineTerminator);
    assert text[0] == a[0];
    DispatchByName(commands, event, name, " ", text);
    DoubleSpacePieces(a, b);
    assert text[|a|] == ' ';
    SplitKeepsAllPieces(text, IsRegexSpace);
  }

  /** Whitespace at the end of the arguments leaves no trailing empty argument. */
  lemma TrailingEmptyArgumentsDropped<H>(commands: string -> Option<H>, event: MessageEvent,
                                         name: string, a: string, h: H)
    requires event.text == "!" + name + " " + a + " "
    requires |name| > 0 && All(name, IsWordChar)
    requires |a| > 0 && !Any(a, IsRegexSpace) && !Any(a, IsLineTerminator)
    requires commands(name) == Some(h)
    ensures OnMessage(commands, event) == Invoked(h, event, [a])
  {
    var text := a + " ";
    assert event.text == "!" + name + " " + text;
    NoneInConcat(a, " ", IsLineTerminator);
    assert text[0] == a[0];
    DispatchByName(commands, event, name, " ", text);
    SplitDropsTrailingSpace(a);
  }

  /** One space after a word: `split` keeps the word and drops the empty piece. */
  lemma SplitDropsTrailingSpace(a: string)
    requires |a| > 0 && !Any(a, IsRegexSpace)
    ensures Split(a + " ", IsRegexSpace) == [a]
  {
    var text := a + " ";
    assert text == a + [' '] + "";
    PiecesAfterSeparator(a, ' ', "", IsRegexSpace);
    assert text[|a|] == ' ';
    SplitDropsLastEmptyPiece(text, IsRegexSpace);
  }
}

=== FILE: events.dfy ===
/** Inbound chat events, as the listeners see them. */
module Events {

  /** A message received in a channel: the sender's nick, the channel and the raw
      text (`getUser().getNick()`, `getChannel()`, `getMessage()`). */
  datatype MessageEvent = MessageEvent(sender: string, channel: string, text: string)
}

=== FILE: irc_utils.dfy ===
/** Channel naming (`IrcUtils`). */
module IrcUtils {

  /** `channelOf`: the addressable form of a bare channel name, `'#'` in front. */
  function ChannelOf(channelName: string): (r: string)
    ensures |r| == |channelName| + 1
    ensures r[0] == '#'
    ensures r[1..] == channelName
  {
    "#" + channelName
  }

  /** Different channel names never collide. */
  lemma ChannelOfInjective(a: string, b: string)
    ensures ChannelOf(a) == ChannelOf(b) <==> a == b
  {
    if ChannelOf(a) == ChannelOf(b) {
      assert a == ChannelOf(a)[1..];
    }
  }

  /** No normalisation takes place: a name that already carries `'#'` gets a second
      one, so applying `ChannelOf` again always changes the result. */
  lemma ChannelOfNotIdempotent(n: string)
    ensures ChannelOf("#x") == "##x"
    ensures ChannelOf(ChannelOf(n)) != ChannelOf(n)
  {
    assert |ChannelOf(ChannelOf(n))| == |ChannelOf(n)| + 1;
  }
}

=== FILE: java_format.dfy ===
/** `String.formatted` with a single argument, for the templates a moderation
    map holds: literal text, the conversion `%s` and the escape `%%`. */
module JavaFormat {
  import opened Wrappers
  import opened JavaLang

  predicate IsPercent(c: char) {
    c == '%'
  }

  /** Puts `s` in front of a successful result; an exception passes through. */
  function Prepend(s: string, r: Result<string, JavaException>): Result<string, JavaException> {
    match r
    case Success(v) => Success(s + v)
    case Failure(e) => Failure(e)
  }

  /** Formats `t` once the argument has or has not been `used` by an earlier `%s`.
      A `%s` after the first has no argument left; that, a lone `%` at the end, and
      `%` before any other character are all reported as one illegal-format
      exception. */
  function Format(t: string, arg: string, used: bool): (r: Result<string, JavaException>)
    ensures r.Failure? ==> r.error == IllegalFormatException
    decreases |t|
  {
    if |t| == 0 then Success("")
    else if t[0] != '%' then Prepend([t[0]], Format(t[1..], arg, used))
    else if |t| == 1 then Failure(IllegalFormatException)
    else if t[1] == '%' then Prepend("%", Format(t[2..], arg, used))
    else if t[1] == 's' && !used then Prepend(arg, Format(t[2..], arg, true))
    else Failure(IllegalFormatException)
  }

  /** `template.formatted(arg)`: it fails only with an illegal-format exception,
      and a template without `%` comes back unchanged. */
  function Formatted(template: string, arg: string): (r: Result<string, JavaException>)
    ensures r.Failure? ==> r.error == IllegalFormatException
    ensures !Any(template, IsPercent) ==> r == Success(template)
  {
    if !Any(template, IsPercent) then PlainTextFormatsToItself(template, arg, false); Format(template, arg, false)
    else Format(template, arg, false)
  }

  /** Text without `%` formats to itself. */
  lemma {:induction false} PlainTextFormatsToItself(t: string, arg: string, used: bool)
    requires !Any(t, IsPercent)
    ensures Format(t, arg, used) == Success(t)
    decreases |t|
  {
    if |t| > 0 {
      assert t[0] != '%';
      assert !Any(t[1..], IsPercent) by {
        forall k | 0 <= k < |t[1..]| ensures !IsPercent(t[1..][k]) { assert t[1..][k] == t[k + 1]; }
      }
      PlainTextFormatsToItself(t[1..], arg, used);
      assert [t[0]] + t[1..] == t;
    }
  }

  /** A template with exactly one `%s` slot and no other `%` puts the argument in
      the slot and keeps the text around it. */
  lemma {:induction false} SingleSlot(pre: string, post: string, arg: string)
    requires !Any(pre, IsPercent) && !Any(post, IsPercent)
    ensures Formatted(pre + "%s" + post, arg) == Success(pre + arg + post)
    decreases |pre|
  {
    if |pre| == 0 {
      SlotFirst(post, arg);
      assert pre + "%s" + post == "%s" + post;
      assert pre + arg + post == arg + post;
    } else {
      var t := pre + "%s" + post;
      var t' := pre[1..] + "%s" + post;
      assert Format(t, arg, false) == Prepend([pre[0]], Format(t', arg, false)) by {
        assert t[0] == pre[0] && pre[0] != '%';
        assert t[1..] == t';
      }
      assert !Any(pre[1..], IsPercent) by {
        forall k | 0 <= k < |pre[1..]| ensures !IsPercent(pre[1..][k]) { assert pre[1..][k] == pre[k + 1]; }
      }
      SingleSlot(pre[1..], post, arg);
      assert [pre[0]] + (pre[1..] + arg + post) == pre + arg + post;
    }
  }

  /** A template that opens with its `%s` slot. */
  lemma SlotFirst(post: string, arg: string)
    requires !Any(post, IsPercent)
    ensures Format("%s" + post, arg, false) == Success(arg + post)
  {
    var t := "%s" + post;
    assert t[0] == '%' && t[1] == 's' && t[2..] == post;
    PlainTextFormatsToItself(post, arg, true);
  }

  /** A second `%s` finds no argument left: formatting fails. */
  lemma {:induction false} SecondSlotFails(pre: string, mid: string, post: string, arg: string)
    requires !Any(pre, IsPercent) && !Any(mid, IsPercent)
    ensures Formatted(pre + "%s" + mid + "%s" + post, arg) == Failure(IllegalFormatException)
    decreases |pre|
  {
    var t := pre + "%s" + mid + "%s" + post;
    if |pre| == 0 {
      assert t[2..] == mid + "%s" + post;
      SecondSlotAfterUse(mid, post, arg);
    } else {
      assert t[0] == pre[0] && pre[0] != '%';
      assert t[1..] == pre[1..] + "%s" + mid + "%s" + post;
      assert !Any(pre[1..], IsPercent) by {
        forall k | 0 <= k < |pre[1..]| ensures !IsPercent(pre[1..][k]) { assert pre[1..][k] == pre[k + 1]; }
      }
      SecondSlotFails(pre[1..], mid, post, arg);
    }
  }

  /** Once the argument is used, the next `%s` fails. */
  lemma {:induction false} SecondSlotAfterUse(mid: string, post: string, arg: string)
    requires !Any(mid, IsPercent)
    ensures Format(mid + "%s" + post, arg, true) == Failure(IllegalFormatException)
    decreases |mid|
  {
    var t := mid + "%s" + post;
    if |mid| > 0 {
      assert t[0] == mid[0] && mid[0] != '%';
      assert t[1..] == mid[1..] + "%s" + post;
      assert !Any(mid[1..], IsPercent) by {
        forall k | 0 <= k < |mid[1..]| ensures !IsPercent(mid[1..][k]) { assert mid[1..][k] == mid[k + 1]; }
      }
      SecondSlotAfterUse(mid[1..], post, arg);
    } else {
      assert t[0] == '%' && t[1] == 's';
    }
  }
}

=== FILE: java_lang.dfy ===
/** The few pieces of the Java platform the bot's listeners rely on: the
    exceptions they can raise, the character classes of `java.util.regex` and of
    `Character.isWhitespace`, and `String.stripLeading` / `String.startsWith`. */
module JavaLang {

  /** The exceptions the modelled code can end in. */
  datatype JavaException =
    | NullPointerException
    | NoSuchElementException
    | IllegalFormatException

  /** `\w` of `java.util.regex` (no UNICODE_CHARACTER_CLASS flag): `[a-zA-Z_0-9]`. */
  predicate IsWordChar(c: char) {
    ('a' <= c <= 'z') || ('A' <= c <= 'Z') || ('0' <= c <= '9') || c == '_'
  }

  /** `\s` of `java.util.regex`: `[ \t\n\x0B\f\r]`. */
  predicate IsRegexSpace(c: char) {
    c == ' ' || c == '\t' || c == '\n' || c == '\U{000B}' || c == '\U{000C}' || c == '\r'
  }

  /** The line terminators that `.` does not match (no DOTALL, no UNIX_LINES flag). */
  predicate IsLineTerminator(c: char) {
    c == '\n' || c == '\r' || c == '\U{0085}' || c == '\U{2028}' || c == '\U{2029}'
  }

  /** `Character.isWhitespace`: the Unicode space, line and paragraph separators
      other than the no-break spaces, plus the ASCII controls TAB, LF, VT, FF, CR
      and FS, GS, RS, US. */
  predicate IsWhitespace(c: char) {
    ('\t' <= c <= '\r') || ('\U{001C}' <= c <= '\U{001F}') || c == ' '
    || c == '\U{1680}' || ('\U{2000}' <= c <= '\U{2006}') || ('\U{2008}' <= c <= '\U{200A}')
    || c == '\U{2028}' || c == '\U{2029}' || c == '\U{205F}' || c == '\U{3000}'
  }

  /** Every character of `s` satisfies `p`. */
  predicate All(s: string, p: char -> bool) {
    forall k :: 0 <= k < |s| ==> p(s[k])
  }

  /** Some character of `s` satisfies `p`. */
  predicate Any(s: string, p: char -> bool) {
    exists k :: 0 <= k < |s| && p(s[k])
  }

  /** Two texts free of a character class make a text free of it. */
  lemma NoneInConcat(a: string, b: string, p: char -> bool)
    requires !Any(a, p) && !Any(b, p)
    ensures !Any(a + b, p)
  {
    forall k | 0 <= k < |a + b| ensures !p((a + b)[k]) {
      if k < |a| { assert (a + b)[k] == a[k]; } else { assert (a + b)[k] == b[k - |a|]; }
    }
  }

  /** A suffix of a text inherits the absence of a character class. */
  lemma NoneInSuffix(s: string, k: int, p: char -> bool)
    requires 0 <= k <= |s| && !Any(s, p)
    ensures !Any(s[k..], p)
  {
    forall x | 0 <= x < |s[k..]| ensures !p(s[k..][x]) { assert s[k..][x] == s[k + x]; }
  }

  /** Two texts made of a character class make a text made of it. */
  lemma AllInConcat(a: string, b: string, p: char -> bool)
    requires All(a, p) && All(b, p)
    ensures All(a + b, p)
  {
    forall k | 0 <= k < |a + b| ensures p((a + b)[k]) {
      if k < |a| { assert (a + b)[k] == a[k]; } else { assert (a + b)[k] == b[k - |a|]; }
    }
  }

  /** `s` begins with `prefix` (`String.startsWith`). */
  predicate StartsWith(s: string, prefix: string) {
    |prefix| <= |s| && s[..|prefix|] == prefix
  }

  /** Length of the longest prefix of `s` whose characters all satisfy `p`. */
  function Span(s: string, p: char -> bool): (n: nat)
    ensures n <= |s|
    ensures All(s[..n], p)
    ensures n < |s| ==> !p(s[n])
    decreases |s|
  {
    if |s| == 0 || !p(s[0]) then 0
    else
      var n := 1 + Span(s[1..], p);
      assert s[..n] == [s[0]] + s[1..][..n - 1];
      n
  }

  /** The longest run of `p`-characters at the head of `a + b` is exactly `a`
      when `b` does not continue it. */
  lemma SpanOfRun(a: string, b: string, p: char -> bool)
    requires All(a, p)
    requires b == [] || !p(b[0])
    ensures Span(a + b, p) == |a|
  {
    var s := a + b;
    assert forall k :: 0 <= k < |a| ==> s[k] == a[k];
    if |b| > 0 {
      assert s[|a|] == b[0];
    }
  }

  /** `String.stripLeading`: drops the leading characters that are whitespace in
      the sense of `Character.isWhitespace`. */
  function StripLeading(s: string): (r: string)
    ensures |r| <= |s| && r == s[|s| - |r|..]
    ensures All(s[..|s| - |r|], IsWhitespace)
    ensures r == [] || !IsWhitespace(r[0])
  {
    s[Span(s, IsWhitespace)..]
  }

  /** Whitespace in front of a text makes no difference once it is stripped. */
  lemma StripLeadingSkipsWhitespace(ws: string, s: string)
    requires All(ws, IsWhitespace)
    ensures StripLeading(ws + s) == StripLeading(s)
  {
    var n := Span(s, IsWhitespace);
    var a := s[..n];
    var b := s[n..];
    assert s == a + b;
    AllInConcat(ws, a, IsWhitespace);
    assert ws + s == (ws + a) + b;
    SpanOfRun(ws + a, b, IsWhitespace);
    assert (ws + s)[|ws + a|..] == b;
  }

  /** Stripping twice is stripping once. */
  lemma StripLeadingIdempotent(s: string)
    ensures StripLeading(StripLeading(s)) == StripLeading(s)
  {
    var r := StripLeading(s);
    SpanOfRun([], r, IsWhitespace);
    assert [] + r == r;
  }
}

=== FILE: java_split.dfy ===
/** `String.split(regex)` (limit 0) for a regex that matches exactly one
    character of a class — the two uses in the bot are `split("\\s")` and
    `split(" ")`. The class is the predicate `sep`. */
module JavaSplit {
  import opened JavaLang

  /** The separator characters of `s`, in order. */
  function Separators(s: string, sep: char -> bool): string
    decreases |s|
  {
    if |s| == 0 then []
    else (if sep(s[0]) then [s[0]] else []) + Separators(s[1..], sep)
  }

  /** The pieces of `s` between separator characters, every empty piece kept:
      one more piece than there are separators, and no piece holds a separator. */
  function Pieces(s: string, sep: char -> bool): (r: seq<string>)
    ensures |r| == |Separators(s, sep)| + 1
    ensures forall i :: 0 <= i < |r| ==> !Any(r[i], sep)
    decreases |s|
  {
    if |s| == 0 then [""]
    else
      var rest := Pieces(s[1..], sep);
      if sep(s[0]) then [""] + rest
      else
        var head := [s[0]] + rest[0];
        assert !Any(head, sep) by {
          forall k | 0 <= k < |head| ensures !sep(head[k]) {
            if k > 0 { assert head[k] == rest[0][k - 1]; }
          }
        }
        [head] + rest[1..]
  }

  /** Puts the separators back between the pieces. */
  function Rejoin(pieces: seq<string>, seps: string): string
    requires |pieces| == |seps| + 1
    decreases |seps|
  {
    if |seps| == 0 then pieces[0]
    else pieces[0] + [seps[0]] + Rejoin(pieces[1..], seps[1..])
  }

  /** Splitting loses nothing: the pieces and the separators rebuild the text. */
  lemma {:induction false} PiecesRejoin(s: string, sep: char -> bool)
    ensures Rejoin(Pieces(s, sep), Separators(s, sep)) == s
    decreases |s|
  {
    if |s| > 0 {
      PiecesRejoin(s[1..], sep);
      var rest := Pieces(s[1..], sep);
      var seps := Separators(s[1..], sep);
      if sep(s[0]) {
        assert Separators(s, sep) == [s[0]] + seps;
        RejoinAfterEmpty(rest, s[0], seps);
      } else {
        assert Separators(s, sep) == seps;
        RejoinWithLongerHead(s[0], rest, seps);
      }
      assert s == [s[0]] + s[1..];
    }
  }

  /** An empty first piece followed by a separator rejoins to that separator. */
  lemma RejoinAfterEmpty(rest: seq<string>, c: char, seps: string)
    requires |rest| == |seps| + 1
    ensures Rejoin([""] + rest, [c] + seps) == [c] + Rejoin(rest, seps)
  {
    assert ([""] + rest)[1..] == rest;
    assert ([c] + seps)[1..] == seps;
  }

  /** A character put in front of the first piece comes first in the rejoined text. */
  lemma RejoinWithLongerHead(c: char, rest: seq<string>, seps: string)
    requires |rest| == |seps| + 1
    ensures Rejoin([[c] + rest[0]] + rest[1..], seps) == [c] + Rejoin(rest, seps)
  {
    if |seps| > 0 {
      assert ([[c] + rest[0]] + rest[1..])[1..] == rest[1..];
    }
  }

  /** A text without separators is a single piece. */
  lemma {:induction false} PiecesOfPlainText(s: string, sep: char -> bool)
    requires !Any(s, sep)
    ensures Pieces(s, sep) == [s]
    decreases |s|
  {
    if |s| > 0 {
      assert !sep(s[0]);
      assert !Any(s[1..], sep) by {
        forall k | 0 <= k < |s[1..]| ensures !sep(s[1..][k]) { assert s[1..][k] == s[k + 1]; }
      }
      PiecesOfPlainText(s[1..], sep);
      assert s == [s[0]] + s[1..];
    }
  }

  /** A separator after plain text closes the first piece. */
  lemma {:induction false} PiecesAfterSeparator(a: string, c: char, b: string, sep: char -> bool)
    requires !Any(a, sep) && sep(c)
    ensures Pieces(a + [c] + b, sep) == [a] + Pieces(b, sep)
    decreases |a|
  {
    if |a| == 0 {
      assert a + [c] + b == [c] + b;
      assert ([c] + b)[1..] == b;
    } else {
      var s := a + [c] + b;
      assert s[0] == a[0];
      assert s[1..] == a[1..] + [c] + b;
      assert !Any(a[1..], sep) by {
        forall k | 0 <= k < |a[1..]| ensures !sep(a[1..][k]) { assert a[1..][k] == a[k + 1]; }
      }
      PiecesAfterSeparator(a[1..], c, b, sep);
      assert [a[0]] + a[1..] == a;
    }
  }

  /** Drops the empty strings at the end of a list (limit 0 of `split`). */
  function DropTrailingEmpty(xs: seq<string>): (r: seq<string>)
    ensures |r| <= |xs| && r == xs[..|r|]
    ensures forall i :: |r| <= i < |xs| ==> xs[i] == ""
    ensures r == [] || r[|r| - 1] != ""
    decreases |xs|
  {
    if |xs| == 0 || xs[|xs| - 1] != "" then xs
    else DropTrailingEmpty(xs[..|xs| - 1])
  }

  /** `s.split(regex)` with limit 0, where the regex matches one `sep` character.
      With no separator at all the answer is `[s]` (so `""` gives `[""]`);
      otherwise the pieces, less the empty ones at the end. */
  function Split(s: string, sep: char -> bool): (r: seq<string>)
    ensures forall i :: 0 <= i < |r| ==> !Any(r[i], sep)
    ensures |r| <= |Pieces(s, sep)| && r == Pieces(s, sep)[..|r|]
    ensures forall i :: |r| <= i < |Pieces(s, sep)| ==> Pieces(s, sep)[i] == ""
    ensures s == "" ==> r == [""]
    ensures s != "" ==> r == [] || r[|r| - 1] != ""
    ensures !Any(s, sep) ==> r == [s]
  {
    if !Any(s, sep) then
      PiecesOfPlainText(s, sep);
      [s]
    else
      DropTrailingEmpty(Pieces(s, sep))
  }

  /** When the last piece is not empty, nothing is dropped. */
  lemma SplitKeepsAllPieces(s: string, sep: char -> bool)
    requires Any(s, sep)
    requires Pieces(s, sep)[|Pieces(s, sep)| - 1] != ""
    ensures Split(s, sep) == Pieces(s, sep)
  {
  }

  /** When only the last piece is empty, only it is dropped. */
  lemma SplitDropsLastEmptyPiece(s: string, sep: char -> bool)
    requires Any(s, sep)
    requires |Pieces(s, sep)| >= 2
    requires Pieces(s, sep)[|Pieces(s, sep)| - 1] == ""
    requires Pieces(s, sep)[|Pieces(s, sep)| - 2] != ""
    ensures Split(s, sep) == Pieces(s, sep)[..|Pieces(s, sep)| - 1]
  {
  }

  /** The first piece is the longest separator-free prefix of the text. */
  lemma {:induction false} FirstPiece(s: string, sep: char -> bool)
    ensures StartsWith(s, Pieces(s, sep)[0])
    ensures |Pieces(s, sep)[0]| == |s| || sep(s[|Pieces(s, sep)[0]|])
    decreases |s|
  {
    if |s| > 0 && !sep(s[0]) {
      FirstPiece(s[1..], sep);
      var h := Pieces(s[1..], sep)[0];
      assert Pieces(s, sep)[0] == [s[0]] + h;
      assert s == [s[0]] + s[1..];
    }
  }

  /** A non-empty text that does not start with a separator splits into at least
      one piece, and the first is its longest separator-free prefix. */
  lemma SplitHead(s: string, sep: char -> bool)
    requires s == [] || !sep(s[0])
    ensures |Split(s, sep)| > 0
    ensures StartsWith(s, Split(s, sep)[0])
    ensures !Any(Split(s, sep)[0], sep)
    ensures |Split(s, sep)[0]| == |s| || sep(s[|Split(s, sep)[0]|])
  {
    FirstPiece(s, sep);
    if |s| > 0 {
      var p := Pieces(s, sep)[0];
      assert p != "";
    }
  }
}

=== FILE: moderator.dfy ===
/** The moderation listener (`Moderator`): classify the message text into a
    severity, then ask the response policy for an optional reply to the sender and
    send it when there is one. Severities are values of a type parameter `S`; the
    policy answers `Success(None)` where the Java function answers null and
    `Failure(e)` where it throws. What one message leads to is a `Reaction`. */
module Moderator {
  import opened Wrappers
  import opened JavaLang
  import opened JavaFormat
  import opened Events

  /** The response policy: (sender nick, severity) to an optional reply. */
  type Responder<-S> = (string, S) -> Result<Option<string>, JavaException>

  /** The two injected policy functions. */
  datatype Moderator<!S> = Moderator(severityOf: string -> S, respond: Responder<S>)

  /** The main constructor: `Objects.requireNonNull` on both functions, the
      classifier first. */
  function Create<S>(severityOf: Option<string -> S>, respond: Option<Responder<S>>)
    : (r: Result<Moderator<S>, JavaException>)
    ensures r.Success? <==> severityOf.Some? && respond.Some?
    ensures r.Failure? ==> r.error == NullPointerException
    ensures r.Success? ==> r.value.severityOf == severityOf.value && r.value.respond == respond.value
  {
    match severityOf
    case None => Failure(NullPointerException)
    case Some(c) =>
      match respond
      case None => Failure(NullPointerException)
      case Some(p) => Success(Moderator(c, p))
  }

  /** The policy of the Map constructor: `map.get(severity).formatted(user)`. A
      severity the map lacks gives null, and calling `formatted` on it throws, so
      this policy never answers null: it replies or it throws, and the exception
      is a NullPointerException exactly when the severity has no entry. */
  function MapResponder<S(==,!new)>(m: map<S, string>): (r: Responder<S>)
    ensures forall user, severity :: r(user, severity) != Success(None)
    ensures forall user, severity ::
      r(user, severity) == Failure(NullPointerException) <==> severity !in m
  {
    (user, severity) =>
      if severity !in m then Failure(NullPointerException)
      else
        match Formatted(m[severity], user)
        case Success(reply) => Success(Some(reply))
        case Failure(e) => Failure(e)
  }

  /** The Map constructor: it throws only for a null classifier (the map is never
      null here), and otherwise keeps the classifier with the map's policy. */
  function CreateFromMap<S(==,!new)>(severityOf: Option<string -> S>, m: map<S, string>)
    : (r: Result<Moderator<S>, JavaException>)
    ensures r.Success? <==> severityOf.Some?
    ensures r.Failure? ==> r.error == NullPointerException
    ensures r.Success? ==> r.value.severityOf == severityOf.value && r.value.respond == MapResponder(m)
  {
    Create(severityOf, Some(MapResponder(m)))
  }

  /** What one message leads to: one reply to the sender, nothing, or an
      exception out of the listener. */
  datatype Reaction = Replied(reply: string) | Silent | Raised(exception: JavaException)

  /** `moderate`: the policy sees the sender and the severity of the text; a
      non-null answer is sent (`Optional.ofNullable(...).ifPresent`), a null one
      sends nothing, and an exception of the policy propagates. */
  function Moderate<S>(mod: Moderator<S>, event: MessageEvent): (r: Reaction)
    ensures var answer := mod.respond(event.sender, mod.severityOf(event.text));
      && (r.Replied? <==> answer.Success? && answer.value.Some?)
      && (r.Replied? ==> answer == Success(Some(r.reply)))
      && (r.Silent? <==> answer == Success(None))
      && (r.Raised? <==> answer.Failure?)
      && (r.Raised? ==> answer == Failure(r.exception))
  {
    match mod.respond(event.sender, mod.severityOf(event.text))
    case Failure(e) => Raised(e)
    case Success(None) => Silent
    case Success(Some(reply)) => Replied(reply)
  }

  /** `onMessage` does nothing but `moderate`. */
  function OnMessage<S>(mod: Moderator<S>, event: MessageEvent): (r: Reaction)
    ensures r == Moderate(mod, event)
  {
    Moderate(mod, event)
  }

  /** The pipeline of a constructed moderator: the classifier sees the text, the
      policy sees the sender and the resulting severity, and a reply is sent
      exactly when the policy gives one, unchanged. */
  lemma ModeratePipeline<S>(c: string -> S, p: Responder<S>, event: MessageEvent, reply: string)
    ensures Create(Some(c), Some(p)).Success?
    ensures (OnMessage(Create(Some(c), Some(p)).value, event) == Replied(reply))
        <==> (p(event.sender, c(event.text)) == Success(Some(reply)))
    ensures (OnMessage(Create(Some(c), Some(p)).value, event) == Silent)
        <==> (p(event.sender, c(event.text)) == Success(None))
  {
  }

  /** Two messages from the same sender that get the same severity get the same
      outcome: the text matters only through its severity. */
  lemma OnlySeverityMatters<S>(mod: Moderator<S>, e1: MessageEvent, e2: MessageEvent)
    requires e1.sender == e2.sender
    requires mod.severityOf(e1.text) == mod.severityOf(e2.text)
    ensures Moderate(mod, e1) == Moderate(mod, e2)
  {
  }

  /** A moderator built from a map is never silent: it replies with the mapped
      template formatted with the sender, or it throws — a NullPointerException
      exactly when the severity has no entry. */
  lemma MapModeratorNeverSilent<S(!new)>(c: string -> S, m: map<S, string>, event: MessageEvent)
    ensures CreateFromMap(Some(c), m).Success?
    ensures var r := Moderate(CreateFromMap(Some(c), m).value, event);
      && r != Silent
      && (r == Raised(NullPointerException) <==> c(event.text) !in m)
      && (c(event.text) in m ==>
            (r.Replied? <==> Formatted(m[c(event.text)], event.sender).Success?)
            && (r.Replied? ==> r.reply == Formatted(m[c(event.text)], event.sender).value))
  {
  }

  /** A severity mapped to a one-slot template replies with the sender's nick in
      the slot. */
  lemma MapModeratorFillsSlot<S(!new)>(c: string -> S, m: map<S, string>, event: MessageEvent,
                                     pre: string, post: string)
    requires c(event.text) in m && m[c(event.text)] == pre + "%s" + post
    requires !Any(pre, IsPercent) && !Any(post, IsPercent)
    ensures CreateFromMap(Some(c), m).Success?
    ensures Moderate(CreateFromMap(Some(c), m).value, event) == Replied(pre + event.sender + post)
  {
    SingleSlot(pre, post, event.sender);
  }

  /** Three ordered severity levels, for the worked example below. */
  datatype Severity = NoSeverity | Warn | Ban

  /** `s` contains `sub` somewhere. */
  predicate Contains(s: string, sub: string)
    decreases |s|
  {
    StartsWith(s, sub) || (|s| > 0 && Contains(s[1..], sub))
  }

  /** A text without the first character of `sub` does not contain `sub`. */
  lemma {:induction false} MissingFirstCharNotContained(s: string, sub: string)
    requires |sub| > 0 && sub[0] !in s
    ensures !Contains(s, sub)
    decreases |s|
  {
    if |s| > 0 {
      assert s[0] != sub[0];
      assert forall c :: c in s[1..] ==> c in s;
      MissingFirstCharNotContained(s[1..], sub);
    }
  }

  /** The example classifier: `ban` when the message mentions spam. */
  function SpamClassifier(text: string): Severity {
    if Contains(text, "spam") then Ban else NoSeverity
  }

  /** The example moderator: map `{ban: "%s has been warned"}`. */
  function SpamModerator(): Moderator<Severity> {
    CreateFromMap(Some(SpamClassifier), map[Ban := "%s" + Warned]).value
  }

  /** The text after the slot of the example template. */
  const Warned := " has been warned"

  /** "buy spam now" from alice is answered "alice has been warned" (`"alice" + Warned`). */
  lemma SpamExampleWarns(event: MessageEvent)
    requires event.sender == "alice" && event.text == "buy spam now"
    ensures Moderate(SpamModerator(), event) == Replied("alice" + Warned)
  {
    ClassifierExamples();
    SpamWarnsSender(event);
  }

  /** Any message classified `ban` is answered with the sender's nick followed by
      the rest of the template. */
  lemma SpamWarnsSender(event: MessageEvent)
    requires SpamClassifier(event.text) == Ban
    ensures Moderate(SpamModerator(), event) == Replied(event.sender + Warned)
  {
    WarnedTailIsPlain(Warned);
    assert "" + "%s" + Warned == "%s" + Warned;
    assert "" + event.sender + Warned == event.sender + Warned;
    MapModeratorFillsSlot(SpamClassifier, map[Ban := "%s" + Warned], event, "", Warned);
  }

  /** "hello" gets severity none, which the map lacks, so the Map constructor's
      policy throws rather than staying silent. */
  lemma HelloExampleThrows(event: MessageEvent)
    requires event.text == "hello"
    ensures Moderate(SpamModerator(), event) == Raised(NullPointerException)
  {
    ClassifierExamples();
  }

  /** The tail of the example template holds no `%`. */
  lemma WarnedTailIsPlain(t: string)
    requires t == " has been warned"
    ensures !Any(t, IsPercent)
  {
    forall k | 0 <= k < |t| ensures !IsPercent(t[k]) { assert t[k] in " has been warned"; }
  }

  /** The example classifier on the two example messages. */
  lemma ClassifierExamples()
    ensures SpamClassifier("buy spam now") == Ban
    ensures SpamClassifier("hello") == NoSeverity
  {
    var spam := "buy spam now";
    assert spam[4..][..4] == "spam";
    assert Contains(spam[4..], "spam");
    assert spam[1..][1..][1..][1..] == spam[4..];
    assert 's' !in "hello";
    MissingFirstCharNotContained("hello", "spam");
  }
}

=== FILE: simple_command_listener.dfy ===
/** The simple command router (`SimpleCommandListener`): the first space-separated
    token of the message, after leading whitespace, must start with the prefix;
    the rest of the token names a canned reply, which is sent when the mapping has
    one. The mapping answers `None` where the Java function answers null. */
module SimpleCommandListener {
  import opened Wrappers
  import opened JavaLang
  import opened JavaSplit
  import opened Events

  /** The injected reply mapping and command prefix. */
  datatype Listener = Listener(mapping: string -> Option<string>, prefix: string)

  /** The constructor taking a `Map`: the mapping is `map::get`. */
  function FromMap(m: map<string, string>, prefix: string): (l: Listener)
    ensures l.prefix == prefix
    ensures forall name :: l.mapping(name).Some? <==> name in m
    ensures forall name :: name in m ==> l.mapping(name) == Some(m[name])
  {
    Listener(name => if name in m then Some(m[name]) else None, prefix)
  }

  /** The separator of `split(" ")`: the space character only. */
  predicate IsSpace(c: char) {
    c == ' '
  }

  /** `message.stripLeading().split(" ")[0]`: the longest prefix of the stripped
      message without a space. Indexing never fails, because the stripped
      message never starts with a space. */
  function CommandToken(message: string): (token: string)
    ensures StartsWith(StripLeading(message), token)
    ensures !Any(token, IsSpace)
    ensures |token| == |StripLeading(message)| || StripLeading(message)[|token|] == ' '
  {
    var stripped := StripLeading(message);
    SplitHead(stripped, IsSpace);
    Split(stripped, IsSpace)[0]
  }

  /** The command name: the token less the prefix, or `None` when the token does
      not start with the prefix. */
  function CommandName(prefix: string, message: string): (name: Option<string>)
    ensures name.Some? <==> StartsWith(CommandToken(message), prefix)
    ensures name.Some? ==> CommandToken(message) == prefix + name.value
  {
    var token := CommandToken(message);
    if StartsWith(token, prefix) then Some(token[|prefix|..]) else None
  }

  /** `onMessage`: the reply sent (at most one), `None` when nothing is sent. */
  function OnMessage(l: Listener, event: MessageEvent): (reply: Option<string>)
    ensures reply.Some? ==> StartsWith(CommandToken(event.text), l.prefix)
    ensures reply.Some? ==> l.mapping(CommandToken(event.text)[|l.prefix|..]) == reply
    ensures StartsWith(CommandToken(event.text), l.prefix) ==>
      reply == l.mapping(CommandToken(event.text)[|l.prefix|..])
  {
    match CommandName(l.prefix, event.text)
    case None => None
    case Some(name) => l.mapping(name)
  }

  /** Leading whitespace makes no difference to the reply. */
  lemma LeadingWhitespaceIgnored(l: Listener, event: MessageEvent, ws: string)
    requires All(ws, IsWhitespace)
    ensures OnMessage(l, event.(text := ws + event.text)) == OnMessage(l, event)
  {
    StripLeadingSkipsWhitespace(ws, event.text);
  }

  /** Only a space ends the token: a text with no space and no leading whitespace
      is its own token, tabs included. */
  lemma TokenEndsOnlyAtSpace(message: string)
    requires !Any(message, IsSpace)
    requires message == [] || !IsWhitespace(message[0])
    ensures CommandToken(message) == message
  {
    SpanOfRun([], message, IsWhitespace);
    assert [] + message == message;
  }

  /** `"!hello\tworld"` is one token: the tab does not split it. */
  lemma TabDoesNotSplit()
    ensures CommandToken("!hello\tworld") == "!hello\tworld"
  {
    var s := "!hello\tworld";
    assert !Any(s, IsSpace) by {
      forall k | 0 <= k < |s| ensures !IsSpace(s[k]) {
        assert s[k] in "!hello\tworld";
      }
    }
    TokenEndsOnlyAtSpace(s);
  }

  /** The facts `CommandToken` states single out one token: two space-free
      prefixes that each end at a space or at the end of the text are equal. */
  lemma TokenUnique(s: string, a: string, b: string)
    requires StartsWith(s, a) && !Any(a, IsSpace) && (|a| == |s| || s[|a|] == ' ')
    requires StartsWith(s, b) && !Any(b, IsSpace) && (|b| == |s| || s[|b|] == ' ')
    ensures a == b
  {
    assert forall k :: 0 <= k < |a| ==> a[k] == s[..|a|][k];
    assert forall k :: 0 <= k < |b| ==> b[k] == s[..|b|][k];
    assert |a| == |b|;
  }

  /** Whatever follows the first space is ignored: `"!hello world"` gets the same
      reply as `"!hello"`. */
  lemma RestIgnored(l: Listener, event: MessageEvent, rest: string)
    requires !Any(event.text, IsSpace)
    requires StripLeading(event.text) != []
    ensures OnMessage(l, event.(text := event.text + " " + rest)) == OnMessage(l, event)
  {
    var t := event.text;
    var s := StripLeading(t);
    NoneInSuffix(t, |t| - |s|, IsSpace);
    StripLeadingOfAppend(t, " " + rest);
    assert t + " " + rest == t + (" " + rest);
    var longer := s + (" " + rest);
    assert longer[..|s|] == s && longer[|s|] == ' ';
    TokenUnique(s, CommandToken(t), s);
    TokenUnique(longer, CommandToken(t + " " + rest), s);
  }

  /** Text appended after a message that is not all whitespace survives stripping. */
  lemma StripLeadingOfAppend(t: string, x: string)
    requires StripLeading(t) != []
    ensures StripLeading(t + x) == StripLeading(t) + x
  {
    var n := Span(t, IsWhitespace);
    assert t + x == t[..n] + (t[n..] + x);
    SpanOfRun(t[..n], t[n..] + x, IsWhitespace);
  }

  /** The Map constructor behaves as a mapping that answers `map.get`. */
  lemma FromMapIsMapGet(m: map<string, string>, prefix: string, event: MessageEvent)
    ensures OnMessage(FromMap(m, prefix), event) ==
      match CommandName(prefix, event.text)
      case None => None
      case Some(name) => if name in m then Some(m[name]) else None
  {
  }

  /** Prefix `"!"` and mapping `{hello: "Hello, world!"}`: `"!hello"` gets
      `"Hello, world!"`, `"hello"` gets nothing. */
  lemma HelloWorldExample(event: MessageEvent)
    ensures var l := FromMap(map["hello" := "Hello, world!"], "!");
      && OnMessage(l, event.(text := "!hello")) == Some("Hello, world!")
      && OnMessage(l, event.(text := "hello")) == None
  {
    WordIsOneToken("!hello");
    WordIsOneToken("hello");
    assert "!hello"[..1] == "!" && "!hello"[1..] == "hello";
    assert "hello"[..1] != "!";
  }

  /** A word of letters, optionally after `'!'`, is its own token. */
  lemma WordIsOneToken(w: string)
    requires w == "!hello" || w == "hello"
    ensures CommandToken(w) == w
  {
    assert !Any(w, IsSpace) by {
      forall k | 0 <= k < |w| ensures !IsSpace(w[k]) { assert w[k] in "!hello"; }
    }
    TokenEndsOnlyAtSpace(w);
  }
}

=== FILE: wrappers.dfy ===
/** Two plain sum types: `Option` stands for a Java reference that may be null,
    `Result` for a computation that may end in a thrown exception. */
module Wrappers {

  /** A value that may be absent (a nullable Java reference). */
  datatype Option<+T> = None | Some(value: T)

  /** Either a normal return value or the exception that was thrown instead. */
  datatype Result<+T, +E> = Success(value: T) | Failure(error: E)
}
